=== FILE: README.md ===
# Iterative-deepening search over finite trees

This project models the search engine that the repository repeats in three
programs: iterative deepening depth-first search (IDDFS). It proves
properties of the model in Dafny.

The engine has two parts:

- A depth-limited pass pops search nodes from an explicit LIFO stack.
- A driver raises the limit pass after pass.

The three copies differ in ways the model keeps apart:

- `src/file_system_search.py` looks for one goal in a directory tree. It
  expands a node only below the limit, and it rebuilds the route from the
  root to the file it found (`path_states`).
- `src/element_search.py` looks for a user id in a binary tree. It records a
  cutoff when a node reaches the limit, but still pushes that node's
  children. Each pass therefore walks the whole tree until it meets the goal.
  This is modelled as written.
- `src/rights_search.py` collects matches into a list shared by every pass.
  A match is a node at depth 3 or more that passes the goal test. A pass
  stops the moment the list holds 10 entries. The driver starts at a given
  depth.

The state space is an immutable ordered tree, `Trees.Tree`. A state's
actions are its children, in order, and the result of an action is the child
itself; all three problems have this form. The binary tree of the element
lookup is embedded into this form by `ElementSearch.ToTree`, left before
right.

A search node, `SearchNodes.Node`, keeps its state, an optional parent, the
action that led to it and its path cost. Its depth is the length of its
parent chain. The sentinels `failure` and `cutoff` are constructors of
`SearchNodes.Outcome`, next to `Goal(node)`.

Every pass is checked against one reference: `Traversal.Visit`. It is the
order in which the stack pops nodes. That order is a preorder that takes a
node's children last to first, and it stops below a gate when the pass is
gated. `Trees.Somewhere` says what lies in the tree within a gate.
`Traversal.VisitCovers` ties the two together.

Modules, one per file:

- `Trees`: trees, gates and heights. It defines "somewhere in the tree",
  "somewhere within the limit", and routes from the root.
- `SearchNodes`: nodes, depth, expansion, and the route a node's parent
  chain spells out.
- `Traversal`: the reference pop order and what it contains.
- `DepthLimited`: the single-goal pass. It is shared by the file-system
  lookup (gated) and the element lookup (ungated).
- `FileSystemSearch`: the gated lookup, its driver, route rebuilding and the
  sample directory tree.
- `ElementSearch`: the binary-tree adapter, the ungated lookup, its driver
  and the sample user tree.
- `RightsSearch`: the collecting pass and its driver, as written.
- `DistinctRightsSearch`: the collecting pass and driver with repeats
  skipped (see Findings).

The two drivers that look for one goal and the two collecting drivers return
a ghost `lastLimit`. It is the bound of the last pass they ran, and exists
only so that their contracts can say when they stop.

Three facts about the code shape the model:

- Only the element lookup expands past the limit
  (`src/element_search.py:145-149`). The file-system pass and the
  collecting pass both expand a node only while its depth is below the
  limit (`src/file_system_search.py:158-163`, `src/rights_search.py:134-138`).
- The collecting driver starts at its `start_depth` parameter
  (`src/rights_search.py:150`), and `main` passes 3
  (`src/rights_search.py:218`), the same as the minimum match depth.
- The collected list can hold one match several times (see Findings).

## Model

| member | source | states |
|---|---|---|
| SearchNodes.Expand | src/file_system_search.py:107-117 | One child node per action, in the order the actions come. Each child's state is the child, its parent is the expanded node and its action names the child. Its depth and its path cost are both the parent's plus one. |
| SearchNodes.PathCostIsDepth | src/file_system_search.py:68-70 | A node built from the root by expansions has a path cost equal to its depth, because every step costs 1. |
| SearchNodes.ExpandWellFormed | src/file_system_search.py:107-117 | Expanding a node built from the root of a tree gives nodes that are again built from that root. |
| SearchNodes.StateRouteIsRoute | src/file_system_search.py:96-99 | The states along a node's parent chain form a route of the tree from its root, one entry per level. |
| Traversal.VisitCovers | src/file_system_search.py:147-165 | The pop order contains a node with some property exactly when the tree holds a node with that property within the gate. |
| Traversal.LastChildVisitedFirst | src/file_system_search.py:162-163 | When a node is expanded, the next node popped is its last child: the stack takes children right to left. |
| Traversal.VisitWithinBound | src/file_system_search.py:158-163 | Under a gate at `limit`, no popped node lies deeper than `limit`. |
| Traversal.VisitGateInactive | src/file_system_search.py:158-163 | When no node lies below the limit (depth plus height at most the limit), the gated pop order is the ungated one: the limit only stops the expansion of leaves. |
| Traversal.VisitStackAppend | src/file_system_search.py:150-163 | The stack pops whatever was pushed last before what lies below it. |
| Trees.DeepIffHeight | src/file_system_search.py:158-159 | A node at depth `limit` or more is reachable within the gate exactly when the tree's height reaches `limit`. |
| Trees.GateInactive | src/file_system_search.py:158-163 | A gate at or below the bottom of the tree hides nothing. |
| Trees.OccursWithinHeight | src/file_system_search.py:175-178 | Within a limit at or beyond the tree's height, "present within the limit" and "present anywhere" are the same thing. |
| DepthLimited.PopPush | src/file_system_search.py:150-163 | Popping the top of the stack yields the next node of the pop order. Pushing its children, when the gate lets it expand, leaves the rest of that order on the stack. |
| DepthLimited.SingleGoalPass | src/file_system_search.py:147-165 | The pass returns the first goal of the pop order if there is one. Otherwise it returns `Cutoff` exactly when it popped a node at depth `limit` or more, and `Failure` otherwise. |
| FileSystemSearch.DepthLimitedSearch | src/file_system_search.py:138-165 | A goal node is returned exactly when the goal lies within `limit`. The node holds the goal, lies within the limit, was built from the root and has path cost equal to its depth. It is the first goal of the gated right-to-left pop order, so of two goals within the limit the one popped first is returned. Without a goal the result is `Cutoff` exactly when the tree reaches depth `limit`, and `Failure` otherwise. A goal at the root is returned at once. |
| FileSystemSearch.IterativeDeepeningSearch | src/file_system_search.py:168-178 | The driver never returns `Cutoff`. It returns a goal node exactly when the goal is anywhere in the tree, and that node is a shallowest occurrence. The last pass is the one whose limit is the node's depth (1 for a goal at the root), and the node is the first goal of that pass's pop order. `Failure` comes from the pass with limit height + 1, and that pass popped the whole tree in the ungated order. |
| FileSystemSearch.PathStatesFollowTree | src/file_system_search.py:120-127 | The rebuilt path has depth + 1 entries. It starts at the root's value, ends at the node's value, and each entry is a child of the one before. |
| FileSystemSearch.PathStates | src/file_system_search.py:120-127 | The rebuilt path has one entry per level and ends with the node's own value. |
| FileSystemSearch.SamplePathStates | src/file_system_search.py:204-216 | In the sample directory tree, every node built from the root that holds file_d rebuilds to root, subdir_1, subdir_3, file_d. |
| FileSystemSearch.SampleRoute | src/file_system_search.py:198-232 | Searching the sample tree for file_d and rebuilding the route gives root, subdir_1, subdir_3, file_d. |
| ElementSearch.Actions | src/element_search.py:171-180 | The actions are the children that exist: left before right, absent ones left out. |
| ElementSearch.ToTreeFollowsActions | src/element_search.py:171-183 | The embedded tree's children are exactly the embeddings of the actions' results, in order. |
| ElementSearch.ContainsIffOccurs | src/element_search.py:61-65 | The embedded tree holds a node with the goal value exactly when the binary tree contains the id. |
| ElementSearch.HeightAgrees | src/element_search.py:171-180 | The embedded tree has the binary tree's height. |
| ElementSearch.DepthLimitedSearch | src/element_search.py:128-151 | For any limit, a goal node is returned exactly when the id is in the tree, because every pass walks the whole tree. The node is the first goal of the complete walk. An id at the root is returned at once. Without the id, the result is `Cutoff` exactly when the tree reaches depth `limit`, and `Failure` otherwise. |
| ElementSearch.IterativeDeepeningSearch | src/element_search.py:154-161 | The driver never returns `Cutoff`. When the id is present it is found by the pass with limit 1. When it is absent, `Failure` comes from the pass with limit height + 1. |
| ElementSearch.SampleLookups | src/element_search.py:186-222 | In the sample user tree, id 4 is found at depth 3 and id 99 gives `Failure`. |
| ElementSearch.SamplePassBeyondLimit | src/element_search.py:145-149 | Because the pass is ungated, the pass with limit 1 already returns the node for id 4, two levels below its limit. |
| RightsSearch.FoundSound | src/rights_search.py:127-129 | Every value collected from a sequence of popped nodes is the value of one of them at depth 3 or more that passes the goal test. |
| RightsSearch.FoundComplete | src/rights_search.py:127-129 | The value of every such node is collected. |
| RightsSearch.FoundConcat | src/rights_search.py:123-129 | What is collected from two runs of pops one after the other is what the first collects followed by what the second collects. |
| RightsSearch.FoundInTree | src/rights_search.py:127-129 | Everything a gated pass collects is the value of a node of the tree at depth 3 or more that passes the goal test. |
| RightsSearch.PassCollectsWithinLimit | src/rights_search.py:127-138 | A complete pass with bound `limit` collects every value held by a matching node within that bound. |
| RightsSearch.DepthLimitedSearch | src/rights_search.py:109-140 | Without a list, the pass starts a fresh one. It appends the values of matching nodes in pop order, so the list it returns is the list it started with followed by a prefix of what the whole pass collects. It returns the node whose value brought the list to 10 entries at that moment, exactly when the pass holds enough matches. Otherwise it has collected everything, and returns `Cutoff` exactly when it popped a node at depth `limit` or more. Starting below 10 entries, it never leaves more than 10. |
| RightsSearch.CapReached | src/rights_search.py:128-132 | When a match brings the list to 10 entries, the list is exactly what the first pops of the pass collect, and the returned node is that match. |
| RightsSearch.IterativeDeepeningSearch | src/rights_search.py:143-160 | The entries already in the list stay in front. Every entry added is the value of a matching node of the tree. Starting below 10 entries, the list never goes beyond 10. It is a prefix of what the complete passes from `start_depth` on collect, and all of it when it ends below 10. In that case the last bound is max(`start_depth`, height + 1), and every matching value of the tree, however deep, has been added. |
| RightsSearch.DriverTurn | src/rights_search.py:150-160 | One round of the driver keeps its bookkeeping. A pass ending in `Cutoff` means the tree reaches the bound; a pass ending in `Failure` means the tree lies above the bound and every matching value has been added. |
| RightsSearch.PassCompletes | src/rights_search.py:157-160 | A pass that ends without the cap and without a cutoff has added every matching value of the tree. |
| RightsSearch.SampleRepeatedMatch | src/rights_search.py:143-160 | On a chain root, a, b, c where only c matches, the driver started at depth 3 returns exactly `["c", "c"]`. |
| RightsSearch.ChainWalk | src/rights_search.py:123-129 | Popping the whole chain appends c exactly once, since c is the only node at depth 3 or more. |
| RightsSearch.ChainPasses | src/rights_search.py:150-151 | On that chain, the last bound is 4, the pass with bound 3 appends c once, and the passes with bounds 3 and 4 append c twice. |
| DistinctRightsSearch.CollectDistinct | src/rights_search.py:127-129 | Collecting while skipping values already listed keeps a repeat-free list free of repeats. |
| DistinctRightsSearch.CollectSound | src/rights_search.py:127-129 | Every value added is the value of a popped node at depth 3 or more that passes the goal test. |
| DistinctRightsSearch.CollectComplete | src/rights_search.py:127-129 | Every such node's value ends up in the list. |
| DistinctRightsSearch.CollectExtends | src/rights_search.py:127-129 | The list it started with stays in front. |
| DistinctRightsSearch.DistinctDepthLimitedSearch | src/rights_search.py:109-140 | The pass with repeats skipped. It adds, in pop order, the matching values not yet listed. It returns the node that brought the list to 10 entries at that moment, exactly when the pass adds enough new values. Otherwise it has added them all, and returns `Cutoff` exactly when it popped a node at depth `limit` or more. |
| DistinctRightsSearch.DistinctPassExtends | src/rights_search.py:150-151 | One pass keeps the original entries in front and keeps a repeat-free list free of repeats. Every entry beyond the original ones is the value of a matching node of the tree. |
| DistinctRightsSearch.DistinctIterativeDeepeningSearch | src/rights_search.py:143-160 | The driver with repeats skipped. The entries already present stay in front, and a repeat-free list stays free of repeats. Every entry added is the value of a matching node. It never goes beyond 10 when starting below. When it ends below 10, every matching value of the tree is listed, and the last bound is max(`start_depth`, height + 1). |
| DistinctRightsSearch.SampleDistinct | src/rights_search.py:143-160 | On the same chain, the driver that skips repeats lists c exactly once. |

## Left out

- `WindowsFileSearchProblem` (`src/rights_search.py:163-206`) lists directories and reads permission bits from the live file system. The model takes any finite tree and any goal predicate in its place, including the `st_mode == 33206` test.
- Each state's value stands for what the collecting pass appends (`node.state.path`). The path string itself is not modelled.
- The `main` functions are not modelled: their hard-coded paths and their printing. Their sample trees are Dafny constants, and the samples state what the searches return on them.
- The tree-building methods `add_child` and `add_children` are not modelled, because trees are immutable values here.
- `h`, `Node.__lt__` and `__repr__` are not modelled; the search never uses them.
- The sentinels' infinite path cost and float arithmetic are left out. Outcomes are a tagged variant, and path costs are natural numbers equal to the depth.
- `action_cost` is the constant 1 of all three problems.
- The single-goal drivers' `range(1, sys.maxsize)` bound is replaced by a termination measure on the tree height. Those drivers start at limit 1, so they could only run out of limits on a tree of height `sys.maxsize - 1` or more, far beyond any tree held in memory. The collecting driver starts at the caller's `start_depth` instead; the last two lines of this section say what that changes.
- Identity comparison of the sentinels becomes equality of outcome tags.
- Limits and start depths are natural numbers. A negative limit behaves in the source as limit 0.
- The collecting driver's list is always a list. Called with `None`, the source would fail at `len`; that failure is not modelled.
- The element pass's default `limit=10` is not modelled; every caller passes a limit.
- Mutation of the shared `found_files` list is modelled as a value threaded from pass to pass.
- SearchNodes.Depth and FileSystemSearch.PathStates: depth and route rebuilding are unbounded here. The source computes both recursively (`Node.__len__` at `src/file_system_search.py:96-99`, `src/element_search.py:97-101` and `src/rights_search.py:87-90`; `path_states` at `src/file_system_search.py:120-127`). On a node deeper than the interpreter's recursion limit (1000 by default) it raises `RecursionError`. Every pass calls `len(node)`, so a long enough chain of states crashes the source where the model returns an outcome.
- RightsSearch.IterativeDeepeningSearch: states the last bound exactly only when the list ends below 10. When the cap is reached, the contract bounds it by max(`start_depth`, height + 1).
- RightsSearch.IterativeDeepeningSearch: has no upper bound on `start_depth` and always runs at least one pass. In the source, `range(start_depth, sys.maxsize)` (`src/rights_search.py:150`) is empty when `start_depth` is `sys.maxsize` or more: no pass runs, the list is left as it was, and `return result` at line 160 fails because `result` was never bound. On such a start depth the model's promise that a list ending below 10 holds every matching value of the tree does not hold of the source. The same goes for a start depth so close to `sys.maxsize` that the range runs out before a pass stops reporting a cutoff.
- DistinctRightsSearch.DistinctIterativeDeepeningSearch: has the same unbounded `start_depth` as the line above, with the same consequence.

## Findings

| source | as written | input that shows it | evidently intended | confidence | as-written member | corrected member |
|---|---|---|---|---|---|---|
| src/rights_search.py:127-129, 150-160 | Each pass restarts at the root and appends every match it meets to the shared list, so a match within an earlier bound is appended again by every later pass. | The chain root, a, b, c with only c matching, `start_depth` 3: the pass with bound 3 appends c, then reports a cutoff; the pass with bound 4 appends c again. The list holds c twice for one matching file. Ten such repeats would end the search at the cap check of lines 130-132 with fewer than 10 distinct files. | The module docstring (`src/rights_search.py:4-8`) asks for all files with the given permissions from depth 3 on, stopping at the first 10 found: each matching file listed once, and fewer than 10 matches leave exactly that many entries. | high; not executed | RightsSearch.SampleRepeatedMatch | DistinctRightsSearch.DistinctIterativeDeepeningSearch |

=== FILE: depth_limited.dfy ===
/**
  One bounded depth-first pass looking for a single goal, over an explicit
  LIFO stack, as the file-system and the element lookups both run it. The
  two differ in one place: the file-system pass expands a node only when its
  depth is below the limit (`gated`), the element pass records the cutoff but
  expands the node anyway.
 */
module DepthLimited {
  import opened Trees
  import opened SearchNodes
  import opened Traversal

  /** The default goal test: the state's value equals the goal. */
  function GoalTest<V(==)>(goal: V): V -> bool {
    v => v == goal
  }

  function PassGate(gated: bool, limit: nat): Gate {
    if gated then Bounded(limit) else Unbounded
  }

  /** The order in which a pass from the initial state pops nodes, if it
      never stops early. */
  ghost function PassOrder<V>(t: Tree<V>, limit: nat, gated: bool): seq<Node<V>> {
    Visit(Root(t), PassGate(gated, limit))
  }

  ghost predicate AnyGoal<V>(order: seq<Node<V>>, isGoal: V -> bool) {
    AnyIn(order, ValueQ(isGoal))
  }

  ghost predicate AnyDeep<V>(order: seq<Node<V>>, limit: nat) {
    AnyIn(order, DeepQ(limit))
  }

  /** `order[k]` is the first node of `order` whose value passes the test. */
  ghost predicate FirstGoalAt<V>(order: seq<Node<V>>, isGoal: V -> bool, k: int) {
    && 0 <= k < |order|
    && isGoal(order[k].state.value)
    && forall j :: 0 <= j < k ==> !isGoal(order[j].state.value)
  }

  lemma AnyInSnoc<V>(s: seq<Node<V>>, n: Node<V>, Q: (V, nat) -> bool)
    ensures AnyIn(s + [n], Q) <==> AnyIn(s, Q) || Q(n.state.value, Depth(n))
  {
    AnyInConcat(s, [n], Q);
    assert AnyIn([n], Q) <==> Q(n.state.value, Depth(n)) by {
      assert [n][0] == n;
    }
  }

  lemma Reassociate<T>(order: seq<T>, visited: seq<T>, x: T, children: seq<T>, rest: seq<T>)
    requires order == visited + ([x] + children + rest)
    ensures order == visited + [x] + (children + rest)
    ensures |visited| < |order| && order[|visited|] == x
  {
  }

  lemma VisitStackPop<V>(frontier: seq<Node<V>>, g: Gate)
    requires frontier != []
    ensures VisitStack(frontier, g) ==
      Visit(frontier[|frontier| - 1], g) + VisitStack(frontier[..|frontier| - 1], g)
  {
  }

  /** Popping the top of the stack: the popped node is the next one in the
      traversal, and pushing its children (when the gate lets it expand)
      leaves the rest of the traversal in the stack. */
  lemma PopPush<V>(visited: seq<Node<V>>, frontier: seq<Node<V>>, g: Gate, order: seq<Node<V>>)
    requires frontier != []
    requires visited + VisitStack(frontier, g) == order
    ensures |visited| < |order| && order[|visited|] == frontier[|frontier| - 1]
    ensures var node := frontier[|frontier| - 1];
      var pushed := if Expands(g, Depth(node)) then Expand(node) else [];
      visited + [node] + VisitStack(frontier[..|frontier| - 1] + pushed, g) == order
  {
    var node := frontier[|frontier| - 1];
    var rest := frontier[..|frontier| - 1];
    var pushed := if Expands(g, Depth(node)) then Expand(node) else [];
    VisitStackPop(frontier, g);
    VisitStep(node, g);
    assert Visit(node, g) == [node] + VisitStack(pushed, g);
    VisitStackAppend(rest, pushed, g);
    Reassociate(order, visited, node, VisitStack(pushed, g), VisitStack(rest, g));
  }

  /** The pass returns the first goal in traversal order if there is one;
      otherwise `Cutoff` if it popped a node at depth `limit` or more, and
      `Failure` if it did not. */
  method SingleGoalPass<V>(t: Tree<V>, isGoal: V -> bool, limit: nat, gated: bool)
    returns (r: Outcome<V>)
    ensures r.Goal? <==> AnyGoal(PassOrder(t, limit, gated), isGoal)
    ensures r.Goal? ==>
      exists k :: FirstGoalAt(PassOrder(t, limit, gated), isGoal, k)
        && PassOrder(t, limit, gated)[k] == r.node
    ensures r.Cutoff? <==>
      !AnyGoal(PassOrder(t, limit, gated), isGoal) && AnyDeep(PassOrder(t, limit, gated), limit)
  {
    ghost var g := PassGate(gated, limit);
    ghost var order := PassOrder(t, limit, gated);
    ghost var visited: seq<Node<V>> := [];
    var frontier := [Root(t)];
    assert frontier[..0] == [];
    r := Failure;
    while frontier != []
      invariant visited + VisitStack(frontier, g) == order
      invariant forall j :: 0 <= j < |visited| ==> !isGoal(visited[j].state.value)
      invariant r.Failure? || r.Cutoff?
      invariant r.Cutoff? <==> AnyDeep(visited, limit)
      decreases |order| - |visited|
    {
      PopPush(visited, frontier, g, order);
      var node := frontier[|frontier| - 1];
      frontier := frontier[..|frontier| - 1];

      if isGoal(node.state.value) {
        assert FirstGoalAt(order, isGoal, |visited|);
        assert ValueQ(isGoal)(order[|visited|].state.value, Depth(order[|visited|]));
        return Goal(node);
      }

      AnyInSnoc(visited, node, DeepQ(limit));
      visited := visited + [node];
      if Depth(node) >= limit {
        r := Cutoff;
      }
      // The file-system pass expands only below the limit; the element pass
      // expands every node it pops.
      if !gated || Depth(node) < limit {
        frontier := frontier + Expand(node);
      } else {
        assert frontier + [] == frontier;
      }
    }
    assert visited == order;
  }
}

=== FILE: element_search.dfy ===
/**
  User lookup in a binary tree of user ids: an UNGATED depth-limited pass
  and the iterative-deepening driver over it.

  The pass of this lookup records a cutoff when a popped node has reached the
  limit but pushes the node's children all the same, so every pass walks the
  whole tree until it meets the goal. That behaviour is modelled as it is, and
  its consequences are what the contracts below state.
 */
module ElementSearch {
  import opened Trees
  import opened SearchNodes
  import opened Traversal
  import opened DepthLimited

  /** A user node: its id and its optional left and right children. */
  datatype BTree = BNode(value: int, left: Option<BTree>, right: Option<BTree>)

  /** The problem's actions: the children that exist, left before right. */
  function Actions(b: BTree): (acts: seq<BTree>)
    ensures |acts| == (if b.left.Some? then 1 else 0) + (if b.right.Some? then 1 else 0)
    ensures b.left.Some? ==> acts[0] == b.left.value
    ensures b.right.Some? ==> acts[|acts| - 1] == b.right.value
  {
    (if b.left.Some? then [b.left.value] else []) + (if b.right.Some? then [b.right.value] else [])
  }

  /** The binary tree seen as the ordered tree the engine expands. */
  function ToTree(b: BTree): Tree<int>
    decreases b
  {
    var l := if b.left.Some? then [ToTree(b.left.value)] else [];
    var r := if b.right.Some? then [ToTree(b.right.value)] else [];
    Tree(b.value, l + r)
  }

  /** The user id `v` is somewhere in the tree. */
  predicate Contains(b: BTree, v: int)
    decreases b
  {
    || b.value == v
    || (b.left.Some? && Contains(b.left.value, v))
    || (b.right.Some? && Contains(b.right.value, v))
  }

  /** Length of the longest downward path of the binary tree. */
  function BinaryHeight(b: BTree): nat
    decreases b
  {
    var l := if b.left.Some? then 1 + BinaryHeight(b.left.value) else 0;
    var r := if b.right.Some? then 1 + BinaryHeight(b.right.value) else 0;
    if l < r then r else l
  }

  /** Expanding the embedded tree yields, in order, exactly the embeddings
      of the states that the actions lead to. */
  lemma ToTreeFollowsActions(b: BTree)
    ensures ToTree(b).value == b.value
    ensures |ToTree(b).children| == |Actions(b)|
    ensures forall i :: 0 <= i < |Actions(b)| ==> ToTree(b).children[i] == ToTree(Actions(b)[i])
  {
  }

  lemma {:induction false} ContainsIffOccurs(b: BTree, v: int, d: nat)
    ensures Somewhere(ToTree(b), d, Unbounded, ValueQ(GoalTest(v))) <==> Contains(b, v)
    decreases b
  {
    var t := ToTree(b);
    var Q := ValueQ(GoalTest(v));
    if b.left.Some? {
      ContainsIffOccurs(b.left.value, v, d + 1);
      assert t.children[0] == ToTree(b.left.value);
    }
    if b.right.Some? {
      ContainsIffOccurs(b.right.value, v, d + 1);
      assert t.children[|t.children| - 1] == ToTree(b.right.value);
    }
    if Somewhere(t, d, Unbounded, Q) && b.value != v {
      var i :| 0 <= i < |t.children| && Somewhere(t.children[i], d + 1, Unbounded, Q);
      assert (b.left.Some? && t.children[i] == ToTree(b.left.value))
        || (b.right.Some? && t.children[i] == ToTree(b.right.value));
    }
  }

  lemma {:induction false} HeightAgrees(b: BTree)
    ensures Height(ToTree(b)) == BinaryHeight(b)
    decreases b
  {
    var t := ToTree(b);
    HeightOfChildren(t);
    if b.left.Some? {
      HeightAgrees(b.left.value);
      assert t.children[0] == ToTree(b.left.value);
    }
    if b.right.Some? {
      HeightAgrees(b.right.value);
      assert t.children[|t.children| - 1] == ToTree(b.right.value);
    }
    if |t.children| > 0 {
      var i :| 0 <= i < |t.children| && Height(t) == Height(t.children[i]) + 1;
      assert (b.left.Some? && t.children[i] == ToTree(b.left.value))
        || (b.right.Some? && t.children[i] == ToTree(b.right.value));
    }
  }

  /** One ungated pass. Whatever the limit, it finds the goal exactly when
      the goal is in the tree, and the node it returns is the first goal of
      the complete right-to-left walk of the tree. Without a goal it reports
      `Cutoff` exactly when the tree reaches depth `limit`. */
  method DepthLimitedSearch(b: BTree, goal: int, limit: nat) returns (r: Outcome<int>)
    ensures r.Goal? <==> Contains(b, goal)
    ensures r.Goal? ==> r.node.state.value == goal && WellFormedIn(r.node, ToTree(b))
    ensures r.Goal? ==>
      exists k :: FirstGoalAt(Visit(Root(ToTree(b)), Unbounded), GoalTest(goal), k)
        && Visit(Root(ToTree(b)), Unbounded)[k] == r.node
    ensures b.value == goal ==> r == Goal(Root(ToTree(b)))
    ensures r.Cutoff? <==> !Contains(b, goal) && BinaryHeight(b) >= limit
    ensures r.Failure? <==> !Contains(b, goal) && BinaryHeight(b) < limit
  {
    var t := ToTree(b);
    r := SingleGoalPass(t, GoalTest(goal), limit, false);
    ghost var order := PassOrder(t, limit, false);
    VisitCovers(Root(t), Unbounded, ValueQ(GoalTest(goal)));
    VisitCovers(Root(t), Unbounded, DeepQ(limit));
    DeepIffHeight(t, 0, Unbounded, limit);
    ContainsIffOccurs(b, goal, 0);
    HeightAgrees(b);
    if r.Goal? {
      ghost var k :| FirstGoalAt(order, GoalTest(goal), k) && order[k] == r.node;
      VisitWellFormed(Root(t), Unbounded, t);
      assert r.node in order;
      if b.value == goal {
        assert order[0] == Root(t);
      }
    }
  }

  /** Raises the limit from 1 until a pass does not report `Cutoff`. It
      never returns `Cutoff`; it returns a goal node exactly when the id is
      in the tree, already on the pass with limit 1, and otherwise `Failure`
      from the pass whose limit is one more than the height of the tree. */
  method IterativeDeepeningSearch(b: BTree, goal: int) returns (r: Outcome<int>, ghost lastLimit: nat)
    ensures !r.Cutoff?
    ensures Contains(b, goal) ==> lastLimit == 1
    ensures !Contains(b, goal) ==> lastLimit == BinaryHeight(b) + 1
    ensures r.Goal? <==> Contains(b, goal)
    ensures r.Failure? <==> !Contains(b, goal)
    ensures r.Goal? ==> r.node.state.value == goal && WellFormedIn(r.node, ToTree(b))
    ensures r.Goal? ==>
      exists k :: FirstGoalAt(Visit(Root(ToTree(b)), Unbounded), GoalTest(goal), k)
        && Visit(Root(ToTree(b)), Unbounded)[k] == r.node
  {
    var limit := 1;
    while true
      invariant 1 <= limit <= BinaryHeight(b) + 1
      invariant Contains(b, goal) ==> limit == 1
      decreases BinaryHeight(b) + 1 - limit
    {
      r := DepthLimitedSearch(b, goal, limit);
      lastLimit := limit;
      if !r.Cutoff? {
        return;
      }
      limit := limit + 1;
    }
  }

  // The user tree of the demonstration: 1 has children 2 and 3; 2 has 6
  // and 7; 6 has a left child 8; 3 has 9 and 5; 9 has a right child 4.
  const User8: BTree := BNode(8, None, None)
  const User6: BTree := BNode(6, Some(User8), None)
  const User7: BTree := BNode(7, None, None)
  const User2: BTree := BNode(2, Some(User6), Some(User7))
  const User4: BTree := BNode(4, None, None)
  const User9: BTree := BNode(9, None, Some(User4))
  const User5: BTree := BNode(5, None, None)
  const User3: BTree := BNode(3, Some(User9), Some(User5))
  const SampleUsers: BTree := BNode(1, Some(User2), Some(User3))

  lemma RouteToUser4InUser9(route: seq<Tree<int>>)
    requires IsRoute(ToTree(User9), route) && route[|route| - 1].value == 4
    ensures |route| == 2
  {
    assert ToTree(User9) == Tree(9, [ToTree(User4)]);
    RouteStep(ToTree(User9), route);
    LeafRoute(ToTree(User4), route[1..]);
  }

  lemma RouteToUser4InUser3(route: seq<Tree<int>>)
    requires IsRoute(ToTree(User3), route) && route[|route| - 1].value == 4
    ensures |route| == 3
  {
    assert ToTree(User3) == Tree(3, [ToTree(User9), ToTree(User5)]);
    RouteStep(ToTree(User3), route);
    if route[1] == ToTree(User5) {
      LeafRoute(ToTree(User5), route[1..]);
    } else {
      RouteToUser4InUser9(route[1..]);
    }
  }

  lemma NoUser4InUser2(route: seq<Tree<int>>)
    requires IsRoute(ToTree(User2), route)
    ensures route[|route| - 1].value != 4
  {
    assert !Contains(User6, 4);
    ContainsIffOccurs(User2, 4, 0);
    RouteEndIsSomewhere(ToTree(User2), route, 0, Unbounded, ValueQ(GoalTest(4)));
  }

  /** In the sample tree the id 4 is reached only by the route 1, 3, 9, 4. */
  lemma SampleRouteToUser4(route: seq<Tree<int>>)
    requires IsRoute(ToTree(SampleUsers), route) && route[|route| - 1].value == 4
    ensures |route| == 4
  {
    assert ToTree(SampleUsers) == Tree(1, [ToTree(User2), ToTree(User3)]);
    RouteStep(ToTree(SampleUsers), route);
    if route[1] == ToTree(User2) {
      NoUser4InUser2(route[1..]);
    } else {
      RouteToUser4InUser3(route[1..]);
    }
  }

  /** The demonstration: id 4 is found, at depth 3, and id 99 is not. */
  method SampleLookups() returns (r4: Outcome<int>, r99: Outcome<int>)
    ensures r4.Goal? && r4.node.state.value == 4 && Depth(r4.node) == 3
    ensures r99 == Failure
  {
    assert Contains(SampleUsers, 4);
    assert !Contains(SampleUsers, 99);
    ghost var lastLimit;
    r4, lastLimit := IterativeDeepeningSearch(SampleUsers, 4);
    r99, lastLimit := IterativeDeepeningSearch(SampleUsers, 99);
    StateRouteIsRoute(r4.node, ToTree(SampleUsers));
    SampleRouteToUser4(StateRoute(r4.node));
  }

  /** Because the pass is ungated, the pass with limit 1 already returns the
      node for id 4, two levels below its limit. */
  method SamplePassBeyondLimit() returns (r: Outcome<int>)
    ensures r.Goal? && Depth(r.node) == 3
  {
    assert Contains(SampleUsers, 4);
    r := DepthLimitedSearch(SampleUsers, 4, 1);
    StateRouteIsRoute(r.node, ToTree(SampleUsers));
    SampleRouteToUser4(StateRoute(r.node));
  }
}

=== FILE: file_system_search.dfy ===
/**
  File lookup in a static directory tree: a gated depth-limited pass, the
  iterative-deepening driver over it, and the reconstruction of the route
  from the root directory to the file found.

  The problem's actions are a directory's entries in insertion order and the
  result of an action is the entry itself, which is what `Expand` does over
  `Tree.children`; the goal test compares the entry's name with the goal.
 */
module FileSystemSearch {
  import opened Trees
  import opened SearchNodes
  import opened Traversal
  import opened DepthLimited

  /** The values along the parent chain of `n`, root first. */
  function PathStates<V>(n: Node<V>): (path: seq<V>)
    ensures |path| == Depth(n) + 1
    ensures path[|path| - 1] == n.state.value
    decreases n
  {
    match n.parent
    case None => [n.state.value]
    case Some(p) => PathStates(p) + [n.state.value]
  }

  lemma {:induction false} PathStatesAreRouteValues<V>(n: Node<V>)
    ensures forall i :: 0 <= i < |PathStates(n)| ==> PathStates(n)[i] == StateRoute(n)[i].value
    decreases n
  {
    match n.parent
    case None =>
    case Some(p) => PathStatesAreRouteValues(p);
  }

  /** For a node built from the root of `t`, the reconstructed path starts
      at the root's value, ends at the node's value, and spells out a chain
      of the tree in which every entry is a child of the one before. */
  lemma PathStatesFollowTree<V>(n: Node<V>, t: Tree<V>)
    requires WellFormedIn(n, t)
    ensures |PathStates(n)| == Depth(n) + 1
    ensures PathStates(n)[0] == t.value
    ensures PathStates(n)[|PathStates(n)| - 1] == n.state.value
    ensures exists route: seq<Tree<V>> ::
      && IsRoute(t, route)
      && |route| == |PathStates(n)|
      && route[|route| - 1] == n.state
      && (forall i :: 0 <= i < |route| ==> PathStates(n)[i] == route[i].value)
  {
    StateRouteIsRoute(n, t);
    PathStatesAreRouteValues(n);
    var route := StateRoute(n);
    assert IsRoute(t, route) && |route| == |PathStates(n)|;
  }

  /** One gated pass. A goal is found exactly when one lies no deeper than
      `limit`; a found node holds the goal, lies within the limit and was
      built from the root, and it is the first goal of the gated
      right-to-left pop order. Without a goal, the pass reports `Cutoff`
      exactly when the tree reaches depth `limit` and `Failure` otherwise. A
      goal at the root is returned at once. */
  method DepthLimitedSearch<V(==)>(t: Tree<V>, goal: V, limit: nat) returns (r: Outcome<V>)
    ensures r.Goal? <==> OccursWithin(t, GoalTest(goal), limit)
    ensures r.Goal? ==>
      && r.node.state.value == goal
      && Depth(r.node) <= limit
      && WellFormedIn(r.node, t)
      && r.node.pathCost == Depth(r.node)
    ensures r.Goal? ==>
      exists k :: FirstGoalAt(PassOrder(t, limit, true), GoalTest(goal), k)
        && PassOrder(t, limit, true)[k] == r.node
    ensures r.Cutoff? <==> !OccursWithin(t, GoalTest(goal), limit) && Height(t) >= limit
    ensures r.Failure? <==> !OccursWithin(t, GoalTest(goal), limit) && Height(t) < limit
    ensures t.value == goal ==> r == Goal(Root(t))
  {
    r := SingleGoalPass(t, GoalTest(goal), limit, true);
    ghost var order := PassOrder(t, limit, true);
    VisitCovers(Root(t), Bounded(limit), ValueQ(GoalTest(goal)));
    VisitCovers(Root(t), Bounded(limit), DeepQ(limit));
    DeepIffHeight(t, 0, Bounded(limit), limit);
    if r.Goal? {
      ghost var k :| FirstGoalAt(order, GoalTest(goal), k) && order[k] == r.node;
      VisitWellFormed(Root(t), Bounded(limit), t);
      VisitWithinBound(Root(t), limit);
      assert r.node in order;
      PathCostIsDepth(r.node, t);
      if t.value == goal {
        assert order[0] == Root(t);
      }
    }
  }

  /** Raises the limit from 1 until a pass does not report `Cutoff`. It
      never returns `Cutoff`; it returns a goal node exactly when the goal is
      anywhere in the tree, and that node is a shallowest occurrence: the
      last pass is the one whose limit is the node's depth (1 for the root),
      and the node is the first goal of that pass's pop order. Otherwise it
      returns `Failure` from the pass whose limit is one more than the
      height of the tree. */
  method IterativeDeepeningSearch<V(==)>(t: Tree<V>, goal: V) returns (r: Outcome<V>, ghost lastLimit: nat)
    ensures !r.Cutoff?
    ensures r.Failure? ==> lastLimit == Height(t) + 1
    ensures r.Failure? ==> PassOrder(t, lastLimit, true) == Visit(Root(t), Unbounded)
    ensures r.Goal? <==> Occurs(t, GoalTest(goal))
    ensures r.Goal? ==> r.node.state.value == goal && WellFormedIn(r.node, t)
    ensures r.Goal? ==> Depth(r.node) == 0 || !OccursWithin(t, GoalTest(goal), Depth(r.node) - 1)
    ensures r.Goal? ==> lastLimit == (if Depth(r.node) == 0 then 1 else Depth(r.node))
    ensures r.Goal? ==>
      exists k :: FirstGoalAt(PassOrder(t, lastLimit, true), GoalTest(goal), k)
        && PassOrder(t, lastLimit, true)[k] == r.node
  {
    var limit := 1;
    while true
      invariant 1 <= limit <= Height(t) + 1
      invariant limit >= 2 ==> !OccursWithin(t, GoalTest(goal), limit - 1)
      decreases Height(t) + 1 - limit
    {
      r := DepthLimitedSearch(t, goal, limit);
      lastLimit := limit;
      if !r.Cutoff? {
        if r.Goal? {
          OccursWithinMonotone(t, GoalTest(goal), limit, limit);
          var d := Depth(r.node);
          if d >= 1 && limit >= 2 && OccursWithin(t, GoalTest(goal), d - 1) {
            OccursWithinMonotone(t, GoalTest(goal), d - 1, limit - 1);
          }
          StateRouteIsRoute(r.node, t);
          RouteEndIsSomewhere(t, StateRoute(r.node), 0, Bounded(d), ValueQ(GoalTest(goal)));
          if d < limit && limit >= 2 {
            OccursWithinMonotone(t, GoalTest(goal), d, limit - 1);
          }
        } else {
          OccursWithinHeight(t, GoalTest(goal), limit);
          VisitGateInactive(Root(t), limit);
        }
        return;
      }
      limit := limit + 1;
    }
  }

  // The directory tree of the demonstration: root holds subdir_1 and
  // subdir_2, subdir_1 holds file_a and subdir_3, subdir_3 holds file_b and
  // file_d, subdir_2 holds file_c.
  const FileA: Tree<string> := Tree("file_a", [])
  const FileB: Tree<string> := Tree("file_b", [])
  const FileC: Tree<string> := Tree("file_c", [])
  const FileD: Tree<string> := Tree("file_d", [])
  const Subdir3: Tree<string> := Tree("subdir_3", [FileB, FileD])
  const Subdir1: Tree<string> := Tree("subdir_1", [FileA, Subdir3])
  const Subdir2: Tree<string> := Tree("subdir_2", [FileC])
  const SampleTree: Tree<string> := Tree("root", [Subdir1, Subdir2])

  lemma RouteToFileDInSubdir3(route: seq<Tree<string>>)
    requires IsRoute(Subdir3, route) && route[|route| - 1].value == "file_d"
    ensures route == [Subdir3, FileD]
  {
    assert route[0].value[0] == 's';
    RouteStep(Subdir3, route);
    LeafRoute(FileD, route[1..]);
    assert route == [route[0]] + route[1..];
  }

  lemma RouteToFileDInSubdir1(route: seq<Tree<string>>)
    requires IsRoute(Subdir1, route) && route[|route| - 1].value == "file_d"
    ensures route == [Subdir1, Subdir3, FileD]
  {
    assert route[0].value[0] == 's';
    RouteStep(Subdir1, route);
    RouteToFileDInSubdir3(route[1..]);
    assert route == [route[0]] + route[1..];
  }

  lemma NoFileDInSubdir2(route: seq<Tree<string>>)
    requires IsRoute(Subdir2, route)
    ensures route[|route| - 1].value != "file_d"
  {
    if |route| > 1 {
      RouteStep(Subdir2, route);
      LeafRoute(FileC, route[1..]);
      assert route[|route| - 1].value[5] == 'c';
    } else {
      assert route[0].value[0] == 's';
    }
  }

  /** The only route of the sample tree ending at a file named file_d. */
  lemma SampleRouteToFileD(route: seq<Tree<string>>)
    requires IsRoute(SampleTree, route) && route[|route| - 1].value == "file_d"
    ensures route == [SampleTree, Subdir1, Subdir3, FileD]
  {
    assert route[0].value[0] == 'r';
    RouteStep(SampleTree, route);
    if route[1] == Subdir2 {
      NoFileDInSubdir2(route[1..]);
    }
    RouteToFileDInSubdir1(route[1..]);
    assert route == [route[0]] + route[1..];
  }

  /** A file named file_d lies in the sample tree. */
  lemma SampleHasFileD()
    ensures Occurs(SampleTree, GoalTest("file_d"))
  {
    var Q := ValueQ(GoalTest("file_d"));
    assert Somewhere(FileD, 3, Unbounded, Q);
    assert Somewhere(Subdir3, 2, Unbounded, Q) by {
      assert Subdir3.children[1] == FileD;
    }
    assert Somewhere(Subdir1, 1, Unbounded, Q) by {
      assert Subdir1.children[1] == Subdir3;
    }
    assert SampleTree.children[0] == Subdir1;
  }

  /** The route reconstructed from any node built from the root of the
      sample tree that holds file_d. */
  lemma SamplePathStates(n: Node<string>)
    requires WellFormedIn(n, SampleTree) && n.state.value == "file_d"
    ensures PathStates(n) == ["root", "subdir_1", "subdir_3", "file_d"]
  {
    StateRouteIsRoute(n, SampleTree);
    PathStatesAreRouteValues(n);
    var route := StateRoute(n);
    SampleRouteToFileD(route);
    var path := PathStates(n);
    assert path[0] == route[0].value && path[1] == route[1].value;
    assert path[2] == route[2].value && path[3] == route[3].value;
  }

  /** The demonstration: searching the sample tree for file_d and
      reconstructing the route gives root, subdir_1, subdir_3, file_d. */
  method SampleRoute() returns (route: seq<string>)
    ensures route == ["root", "subdir_1", "subdir_3", "file_d"]
  {
    SampleHasFileD();
    ghost var lastLimit;
    var r;
    r, lastLimit := IterativeDeepeningSearch(SampleTree, "file_d");
    route := PathStates(r.node);
    SamplePathStates(r.node);
  }
}

=== FILE: rights_search.dfy ===
/**
  Bounded enumeration: every pass collects the states that pass the goal test
  at depth `MinDepth` or more into a shared accumulator, and stops as soon as
  the accumulator holds `Cap` entries. The pass is gated like the file-system
  lookup, but it tests a node before it looks at the limit, so nodes lying
  exactly at the limit are still collected.

  Every pass starts again from the root and appends every match it meets, so
  the accumulator can hold the same state more than once and can reach the
  cap through repeats; nothing below claims the entries are distinct.
 */
module RightsSearch {
  import opened Trees
  import opened SearchNodes
  import opened Traversal
  import opened DepthLimited

  /** Matches shallower than this are not collected. */
  const MinDepth: nat := 3

  /** A pass stops once the accumulator holds this many entries. */
  const Cap: nat := 10

  /** `n` is collected: deep enough and passing the goal test. */
  predicate Qualifies<V>(n: Node<V>, isGoal: V -> bool) {
    Depth(n) >= MinDepth && isGoal(n.state.value)
  }

  /** The tree-level test "a collectable node whose value is `v`". */
  function MatchQ<V(==)>(isGoal: V -> bool, v: V): (V, nat) -> bool {
    (w, d) => d >= MinDepth && isGoal(w) && w == v
  }

  /** The values a pass appends while it pops the nodes of `s`, in order. */
  function Found<V>(s: seq<Node<V>>, isGoal: V -> bool): seq<V>
    decreases |s|
  {
    if s == [] then []
    else
      var last := s[|s| - 1];
      Found(s[..|s| - 1], isGoal) + (if Qualifies(last, isGoal) then [last.state.value] else [])
  }

  /** The accumulator a pass starts from: the caller's list, or a fresh empty
      one when the caller passes none. */
  function Initial<V>(found: Option<seq<V>>): seq<V> {
    match found
    case None => []
    case Some(list) => list
  }

  lemma FoundSnoc<V>(s: seq<Node<V>>, n: Node<V>, isGoal: V -> bool)
    ensures Found(s + [n], isGoal) ==
      Found(s, isGoal) + (if Qualifies(n, isGoal) then [n.state.value] else [])
  {
    assert (s + [n])[..|s|] == s;
  }

  /** Collecting over two stretches of pops is collecting over each in turn. */
  lemma {:induction false} FoundConcat<V>(a: seq<Node<V>>, b: seq<Node<V>>, isGoal: V -> bool)
    ensures Found(a + b, isGoal) == Found(a, isGoal) + Found(b, isGoal)
    decreases |b|
  {
    if b == [] {
      assert a + b == a;
    } else {
      var front := b[..|b| - 1];
      assert a + b == (a + front) + [b[|b| - 1]];
      FoundSnoc(a + front, b[|b| - 1], isGoal);
      FoundConcat(a, front, isGoal);
      FoundSnoc(front, b[|b| - 1], isGoal);
      assert front + [b[|b| - 1]] == b;
    }
  }

  /** `v` is the value of a qualifying node of `s`. */
  ghost predicate QualifyingValue<V>(s: seq<Node<V>>, isGoal: V -> bool, v: V) {
    exists i :: 0 <= i < |s| && Qualifies(s[i], isGoal) && s[i].state.value == v
  }

  /** The `k`-th collected value is the value of a qualifying node of `s`. */
  lemma {:induction false} FoundSoundAt<V>(s: seq<Node<V>>, isGoal: V -> bool, k: nat)
    requires k < |Found(s, isGoal)|
    ensures QualifyingValue(s, isGoal, Found(s, isGoal)[k])
    decreases |s|
  {
    var front := s[..|s| - 1];
    var last := s[|s| - 1];
    assert Found(s, isGoal) == Found(front, isGoal) + (if Qualifies(last, isGoal) then [last.state.value] else []);
    if k < |Found(front, isGoal)| {
      FoundSoundAt(front, isGoal, k);
      var i :| 0 <= i < |front| && Qualifies(front[i], isGoal) && front[i].state.value == Found(front, isGoal)[k];
      assert s[i] == front[i];
    } else {
      assert s[|s| - 1] == last;
    }
  }

  /** Every collected value is the value of a qualifying node of `s`. */
  lemma FoundSound<V>(s: seq<Node<V>>, isGoal: V -> bool)
    ensures forall k :: 0 <= k < |Found(s, isGoal)| ==> QualifyingValue(s, isGoal, Found(s, isGoal)[k])
  {
    forall k | 0 <= k < |Found(s, isGoal)|
      ensures QualifyingValue(s, isGoal, Found(s, isGoal)[k])
    {
      FoundSoundAt(s, isGoal, k);
    }
  }

  /** Every qualifying node of `s` has its value collected. */
  lemma {:induction false} FoundComplete<V>(s: seq<Node<V>>, isGoal: V -> bool)
    ensures forall i :: 0 <= i < |s| && Qualifies(s[i], isGoal) ==> s[i].state.value in Found(s, isGoal)
    decreases |s|
  {
    if s != [] {
      var front := s[..|s| - 1];
      FoundComplete(front, isGoal);
      forall i | 0 <= i < |s| && Qualifies(s[i], isGoal)
        ensures s[i].state.value in Found(s, isGoal)
      {
        if i < |front| {
          assert s[i] == front[i];
        }
      }
    }
  }

  /** A value collected by the first `j` pops of a pass with bound `limit`
      belongs to a collectable node of the tree, however deep. */
  lemma FoundInTree<V>(t: Tree<V>, isGoal: V -> bool, limit: nat, j: nat)
    requires j <= |PassOrder(t, limit, true)|
    ensures forall k :: 0 <= k < |Found(PassOrder(t, limit, true)[..j], isGoal)| ==>
      Somewhere(t, 0, Unbounded, MatchQ(isGoal, Found(PassOrder(t, limit, true)[..j], isGoal)[k]))
  {
    var order := PassOrder(t, limit, true);
    var s := order[..j];
    FoundSound(s, isGoal);
    forall k | 0 <= k < |Found(s, isGoal)|
      ensures Somewhere(t, 0, Unbounded, MatchQ(isGoal, Found(s, isGoal)[k]))
    {
      var v := Found(s, isGoal)[k];
      var i :| 0 <= i < |s| && Qualifies(s[i], isGoal) && s[i].state.value == v;
      assert order[i] == s[i];
      assert AnyIn(order, MatchQ(isGoal, v));
      VisitCovers(Root(t), Bounded(limit), MatchQ(isGoal, v));
      SomewhereWidens(t, 0, limit, limit, MatchQ(isGoal, v));
    }
  }

  /** A complete pass with bound `limit` collects every collectable value
      lying no deeper than `limit`, the nodes exactly at the limit included. */
  lemma PassCollectsWithinLimit<V>(t: Tree<V>, isGoal: V -> bool, limit: nat, v: V)
    requires Somewhere(t, 0, Bounded(limit), MatchQ(isGoal, v))
    ensures v in Found(PassOrder(t, limit, true), isGoal)
  {
    var order := PassOrder(t, limit, true);
    VisitCovers(Root(t), Bounded(limit), MatchQ(isGoal, v));
    var i :| 0 <= i < |order| && MatchQ(isGoal, v)(order[i].state.value, Depth(order[i]));
    FoundComplete(order, isGoal);
    assert Qualifies(order[i], isGoal);
  }

  /** What a pass with bound `limit` that starts from the accumulator
      `start` returns. It collects, in the order of the gated traversal, the
      values of qualifying nodes, and returns the node that brought the
      accumulator to `Cap` entries the moment that happens, which is
      exactly when the traversal holds enough matches; the accumulator has
      then just reached the cap (or grown by one, when it started at or
      above it). Otherwise it has collected every match of the traversal and
      reports `Cutoff` exactly when it popped a node at depth `limit` or
      more. Starting below the cap, it never goes beyond it. */
  ghost predicate PassOutcome<V>(t: Tree<V>, isGoal: V -> bool, limit: nat, start: seq<V>, r: Outcome<V>, found': seq<V>) {
    var order := PassOrder(t, limit, true);
    var all := Found(order, isGoal);
    && (exists j :: 0 <= j <= |order| && found' == start + Found(order[..j], isGoal))
    && (r.Goal? <==> |all| > 0 && |start| + |all| >= Cap)
    && (r.Goal? ==>
          && Qualifies(r.node, isGoal)
          && |found'| == (if |start| < Cap then Cap else |start| + 1)
          && found'[|found'| - 1] == r.node.state.value
          && r.node in order)
    && (!r.Goal? ==> found' == start + all)
    && (r.Cutoff? <==> !r.Goal? && AnyDeep(order, limit))
    && (|start| < Cap ==> |found'| <= Cap)
  }

  /** One pass with bound `limit`, starting from the accumulator `found` (a
      fresh list when there is none); what it returns is `PassOutcome`. */
  method DepthLimitedSearch<V>(t: Tree<V>, isGoal: V -> bool, limit: nat, found: Option<seq<V>>)
    returns (r: Outcome<V>, found': seq<V>)
    ensures PassOutcome(t, isGoal, limit, Initial(found), r, found')
  {
    ghost var g := Bounded(limit);
    ghost var order := PassOrder(t, limit, true);
    ghost var visited: seq<Node<V>> := [];
    var start := Initial(found);
    found' := start;
    var frontier := [Root(t)];
    assert frontier[..0] == [];
    r := Failure;
    while frontier != []
      invariant visited + VisitStack(frontier, g) == order
      invariant found' == start + Found(visited, isGoal)
      invariant Found(visited, isGoal) == [] || |found'| < Cap
      invariant r.Failure? || r.Cutoff?
      invariant r.Cutoff? <==> AnyDeep(visited, limit)
      decreases |order| - |visited|
    {
      PopPush(visited, frontier, g, order);
      var node := frontier[|frontier| - 1];
      frontier := frontier[..|frontier| - 1];
      FoundSnoc(visited, node, isGoal);
      AnyInSnoc(visited, node, DeepQ(limit));
      ghost var front := visited;
      visited := visited + [node];

      var depth := Depth(node);
      if depth >= MinDepth && isGoal(node.state.value) {
        found' := found' + [node.state.value];
        if |found'| >= Cap {
          CapReached(t, isGoal, limit, start, front, node,
            VisitStack(frontier + (if Expands(g, depth) then Expand(node) else []), g), found');
          r := Goal(node);
          return;
        }
      }

      if depth >= limit {
        r := Cutoff;
        assert frontier + [] == frontier;
      } else {
        frontier := frontier + Expand(node);
      }
    }
    assert visited == order;
    PassExhausted(t, isGoal, limit, start, r, found');
  }

  /** The pass at the moment the cap is reached by the value of `node`,
      popped after the nodes of `front` and before those of `rest`. */
  lemma CapReached<V>(t: Tree<V>, isGoal: V -> bool, limit: nat, start: seq<V>,
                      front: seq<Node<V>>, node: Node<V>, rest: seq<Node<V>>, collected: seq<V>)
    requires PassOrder(t, limit, true) == front + [node] + rest
    requires Qualifies(node, isGoal)
    requires Found(front, isGoal) == [] || |start| + |Found(front, isGoal)| < Cap
    requires collected == start + Found(front, isGoal) + [node.state.value]
    requires |collected| >= Cap
    ensures PassOutcome(t, isGoal, limit, start, Goal(node), collected)
  {
    var order := PassOrder(t, limit, true);
    var visited := front + [node];
    FoundSnoc(front, node, isGoal);
    FoundConcat(visited, rest, isGoal);
    assert order[..|visited|] == visited;
    assert collected == start + Found(order[..|visited|], isGoal);
    assert order[|front|] == node;
  }

  /** The pass once it has popped every node without reaching the cap. */
  lemma PassExhausted<V>(t: Tree<V>, isGoal: V -> bool, limit: nat, start: seq<V>, r: Outcome<V>, collected: seq<V>)
    requires collected == start + Found(PassOrder(t, limit, true), isGoal)
    requires Found(PassOrder(t, limit, true), isGoal) == [] || |collected| < Cap
    requires r.Failure? || r.Cutoff?
    requires r.Cutoff? <==> AnyDeep(PassOrder(t, limit, true), limit)
    ensures PassOutcome(t, isGoal, limit, start, r, collected)
  {
    var order := PassOrder(t, limit, true);
    assert order[..|order|] == order;
  }

  /** The bound of the pass after which the driver stops when no pass
      reaches the cap: the first bound from `startDepth` on that lies below
      the bottom of the tree. */
  function FinalLimit<V>(t: Tree<V>, startDepth: nat): nat {
    if startDepth <= Height(t) + 1 then Height(t) + 1 else startDepth
  }

  /** What the complete passes with bounds `from` up to `to - 1` append to
      the accumulator, one after the other. */
  ghost function AllPasses<V>(t: Tree<V>, isGoal: V -> bool, from: nat, to: nat): seq<V>
    decreases to
  {
    if to <= from then [] else AllPasses(t, isGoal, from, to - 1) + Found(PassOrder(t, to - 1, true), isGoal)
  }

  /** Raises the bound from `startDepth`, sharing one accumulator between
      the passes, until the accumulator holds `Cap` entries or a pass does
      not report `Cutoff`. The accumulator ends as a prefix of what the
      complete passes with bounds `startDepth` to the last one append, all
      of it when the cap is not reached, and the last bound is then the
      first one below the bottom of the tree. Hence the entries already
      present stay in front; every entry added is the value of a
      collectable node of the tree; starting below the cap it never goes
      beyond it; and when it ends below the cap, every collectable value of
      the tree, however deep, has been added. */
  method IterativeDeepeningSearch<V(==)>(t: Tree<V>, isGoal: V -> bool, startDepth: nat, found: seq<V>)
    returns (found': seq<V>, ghost lastLimit: nat)
    ensures |found| <= |found'| && found'[..|found|] == found
    ensures |found| < Cap ==> |found'| <= Cap
    ensures forall i :: |found| <= i < |found'| ==> Somewhere(t, 0, Unbounded, MatchQ(isGoal, found'[i]))
    ensures |found'| < Cap ==>
      forall v :: Somewhere(t, 0, Unbounded, MatchQ(isGoal, v)) ==> v in found'[|found|..]
    ensures startDepth <= lastLimit <= FinalLimit(t, startDepth)
    ensures |found'| <= |found + AllPasses(t, isGoal, startDepth, lastLimit + 1)|
    ensures found' == (found + AllPasses(t, isGoal, startDepth, lastLimit + 1))[..|found'|]
    ensures |found'| < Cap ==>
      && found' == found + AllPasses(t, isGoal, startDepth, lastLimit + 1)
      && lastLimit == FinalLimit(t, startDepth)
  {
    var limit := startDepth;
    found' := found;
    while true
      invariant startDepth <= limit <= FinalLimit(t, startDepth)
      invariant limit > startDepth ==> Height(t) >= limit - 1
      invariant found' == found + AllPasses(t, isGoal, startDepth, limit)
      invariant |found| < Cap ==> |found'| < Cap
      invariant forall i :: |found| <= i < |found'| ==> Somewhere(t, 0, Unbounded, MatchQ(isGoal, found'[i]))
      decreases Height(t) + 1 - limit
    {
      ghost var before := found';
      var r;
      r, found' := DepthLimitedSearch(t, isGoal, limit, Some(found'));
      lastLimit := limit;
      DriverTurn(t, isGoal, startDepth, limit, found, before, found', r);
      if |found'| >= Cap {
        return;
      }
      if r != Cutoff {
        return;
      }
      limit := limit + 1;
    }
  }

  /** One turn of the driver: what the pass with bound `limit` guarantees
      carries the driver's bookkeeping over to the next bound, and gives
      what the driver promises when it stops after this pass. */
  lemma DriverTurn<V>(t: Tree<V>, isGoal: V -> bool, startDepth: nat, limit: nat,
                      found: seq<V>, before: seq<V>, after: seq<V>, r: Outcome<V>)
    requires startDepth <= limit
    requires before == found + AllPasses(t, isGoal, startDepth, limit)
    requires forall i :: |found| <= i < |before| ==> Somewhere(t, 0, Unbounded, MatchQ(isGoal, before[i]))
    requires PassOutcome(t, isGoal, limit, before, r, after)
    ensures |found| <= |after| && after[..|found|] == found
    ensures forall i :: |found| <= i < |after| ==> Somewhere(t, 0, Unbounded, MatchQ(isGoal, after[i]))
    ensures |after| <= |found + AllPasses(t, isGoal, startDepth, limit + 1)|
    ensures after == (found + AllPasses(t, isGoal, startDepth, limit + 1))[..|after|]
    ensures !r.Goal? ==> after == found + AllPasses(t, isGoal, startDepth, limit + 1)
    ensures r.Cutoff? ==> Height(t) >= limit
    ensures r.Failure? ==> Height(t) < limit
    ensures r.Failure? ==>
      forall v :: Somewhere(t, 0, Unbounded, MatchQ(isGoal, v)) ==> v in after[|found|..]
  {
    var order := PassOrder(t, limit, true);
    TurnKeeps(t, isGoal, startDepth, limit, found, before, after);
    if !r.Goal? {
      assert after == before + Found(order, isGoal);
    }
    TurnStops(t, isGoal, limit, found, before, after, r);
  }

  /** What one round keeps whatever the pass returned: the driver's original
      entries, soundness, and the list as a prefix of the complete passes so
      far. */
  lemma TurnKeeps<V>(t: Tree<V>, isGoal: V -> bool, startDepth: nat, limit: nat,
                     found: seq<V>, before: seq<V>, after: seq<V>)
    requires startDepth <= limit
    requires before == found + AllPasses(t, isGoal, startDepth, limit)
    requires forall i :: |found| <= i < |before| ==> Somewhere(t, 0, Unbounded, MatchQ(isGoal, before[i]))
    requires exists j ::
      && 0 <= j <= |PassOrder(t, limit, true)|
      && after == before + Found(PassOrder(t, limit, true)[..j], isGoal)
    ensures |found| <= |after| && after[..|found|] == found
    ensures forall i :: |found| <= i < |after| ==> Somewhere(t, 0, Unbounded, MatchQ(isGoal, after[i]))
    ensures |after| <= |found + AllPasses(t, isGoal, startDepth, limit + 1)|
    ensures after == (found + AllPasses(t, isGoal, startDepth, limit + 1))[..|after|]
    ensures after == before + Found(PassOrder(t, limit, true), isGoal) ==>
      after == found + AllPasses(t, isGoal, startDepth, limit + 1)
  {
    assert |found| <= |before| && before[..|found|] == found;
    PassExtends(t, isGoal, limit, found, before, after);
    PassIsPrefix(t, isGoal, limit, before, after);
    assert before + Found(PassOrder(t, limit, true), isGoal) ==
      found + AllPasses(t, isGoal, startDepth, limit + 1);
  }

  /** Why the driver stops or goes on after a pass: a cutoff means the tree
      reaches the bound, and a failure means the tree lies above it and
      every matching value has been added. */
  lemma TurnStops<V>(t: Tree<V>, isGoal: V -> bool, limit: nat,
                     found: seq<V>, before: seq<V>, after: seq<V>, r: Outcome<V>)
    requires |found| <= |before|
    requires !r.Goal? ==> after == before + Found(PassOrder(t, limit, true), isGoal)
    requires r.Cutoff? <==> !r.Goal? && AnyDeep(PassOrder(t, limit, true), limit)
    ensures r.Cutoff? ==> Height(t) >= limit
    ensures r.Failure? ==> Height(t) < limit
    ensures r.Failure? ==>
      forall v :: Somewhere(t, 0, Unbounded, MatchQ(isGoal, v)) ==> v in after[|found|..]
  {
    VisitCovers(Root(t), Bounded(limit), DeepQ(limit));
    DeepIffHeight(t, 0, Bounded(limit), limit);
    if r.Failure? {
      PassCompletes(t, isGoal, limit, found, before, after);
    }
  }

  /** What a pass appends is a prefix of what the complete pass appends. */
  lemma PassIsPrefix<V>(t: Tree<V>, isGoal: V -> bool, limit: nat, before: seq<V>, after: seq<V>)
    requires exists j ::
      && 0 <= j <= |PassOrder(t, limit, true)|
      && after == before + Found(PassOrder(t, limit, true)[..j], isGoal)
    ensures |after| <= |before + Found(PassOrder(t, limit, true), isGoal)|
    ensures after == (before + Found(PassOrder(t, limit, true), isGoal))[..|after|]
  {
    var order := PassOrder(t, limit, true);
    var j :| 0 <= j <= |order| && after == before + Found(order[..j], isGoal);
    FoundConcat(order[..j], order[j..], isGoal);
    assert order[..j] + order[j..] == order;
  }

  /** What one pass of the driver keeps: the original entries stay in front,
      and every entry beyond them is the value of a collectable node. */
  lemma PassExtends<V>(t: Tree<V>, isGoal: V -> bool, limit: nat, found: seq<V>, before: seq<V>, after: seq<V>)
    requires |found| <= |before| && before[..|found|] == found
    requires forall i :: |found| <= i < |before| ==> Somewhere(t, 0, Unbounded, MatchQ(isGoal, before[i]))
    requires exists j ::
      && 0 <= j <= |PassOrder(t, limit, true)|
      && after == before + Found(PassOrder(t, limit, true)[..j], isGoal)
    ensures |found| <= |after| && after[..|found|] == found
    ensures forall i :: |found| <= i < |after| ==> Somewhere(t, 0, Unbounded, MatchQ(isGoal, after[i]))
  {
    var j :| 0 <= j <= |PassOrder(t, limit, true)| &&
      after == before + Found(PassOrder(t, limit, true)[..j], isGoal);
    FoundInTree(t, isGoal, limit, j);
    forall i | |found| <= i < |after|
      ensures Somewhere(t, 0, Unbounded, MatchQ(isGoal, after[i]))
    {
      if i >= |before| {
        assert after[i] == Found(PassOrder(t, limit, true)[..j], isGoal)[i - |before|];
      }
    }
  }

  /** A pass that ends without the cap and without a cutoff has met every
      node of the tree, so its entries cover every collectable value. */
  lemma PassCompletes<V>(t: Tree<V>, isGoal: V -> bool, limit: nat, found: seq<V>, before: seq<V>, after: seq<V>)
    requires |found| <= |before|
    requires after == before + Found(PassOrder(t, limit, true), isGoal)
    requires !AnyDeep(PassOrder(t, limit, true), limit)
    ensures forall v :: Somewhere(t, 0, Unbounded, MatchQ(isGoal, v)) ==> v in after[|found|..]
  {
    var order := PassOrder(t, limit, true);
    VisitCovers(Root(t), Bounded(limit), DeepQ(limit));
    DeepIffHeight(t, 0, Bounded(limit), limit);
    forall v | Somewhere(t, 0, Unbounded, MatchQ(isGoal, v))
      ensures v in after[|found|..]
    {
      GateInactive(t, 0, limit, MatchQ(isGoal, v));
      PassCollectsWithinLimit(t, isGoal, limit, v);
      var k :| 0 <= k < |Found(order, isGoal)| && Found(order, isGoal)[k] == v;
      assert after[|before| + k] == v;
      assert after[|found|..][|before| + k - |found|] == v;
    }
  }

  /** A value with a collectable node in the tree passes the goal test. */
  lemma {:induction false} MatchedValuePasses<V>(t: Tree<V>, d: nat, g: Gate, isGoal: V -> bool, v: V)
    requires Somewhere(t, d, g, MatchQ(isGoal, v))
    ensures isGoal(v)
    decreases t
  {
    if !MatchQ(isGoal, v)(t.value, d) {
      var i :| 0 <= i < |t.children| && Somewhere(t.children[i], d + 1, g, MatchQ(isGoal, v));
      MatchedValuePasses(t.children[i], d + 1, g, isGoal, v);
    }
  }

  // A chain of directories root, a, b holding one file c at depth 3.
  const ChainC: Tree<string> := Tree("c", [])
  const ChainB: Tree<string> := Tree("b", [ChainC])
  const ChainA: Tree<string> := Tree("a", [ChainB])
  const Chain: Tree<string> := Tree("root", [ChainA])

  lemma ChainShape(g: Gate)
    requires Expands(g, 2)
    ensures Height(Chain) == 3
    ensures Somewhere(Chain, 0, g, MatchQ(GoalTest("c"), "c"))
  {
    HeightOfChildren(ChainC);
    HeightOfChildren(ChainB);
    HeightOfChildren(ChainA);
    HeightOfChildren(Chain);
    var Q := MatchQ(GoalTest("c"), "c");
    assert Somewhere(ChainC, 3, g, Q);
    assert Somewhere(ChainB, 2, g, Q) by {
      assert ChainB.children[0] == ChainC;
    }
    assert Somewhere(ChainA, 1, g, Q) by {
      assert ChainA.children[0] == ChainB;
    }
    assert Chain.children[0] == ChainA;
  }

  /** The complete walk of the chain collects c once: it is the only node
      at depth 3 or more. */
  lemma ChainWalk()
    ensures Found(Visit(Root(Chain), Unbounded), GoalTest("c")) == ["c"]
  {
    var isGoal := GoalTest("c");
    var n0 := Root(Chain);
    var n1 := Expand(n0)[0];
    var n2 := Expand(n1)[0];
    var n3 := Expand(n2)[0];
    ChainLink(n0, n1);
    ChainLink(n1, n2);
    ChainLink(n2, n3);
    assert Visit(n3, Unbounded) == [n3];
    FoundConcat([n0], Visit(n1, Unbounded), isGoal);
    FoundConcat([n1], Visit(n2, Unbounded), isGoal);
    FoundConcat([n2], Visit(n3, Unbounded), isGoal);
    FoundSnoc([], n0, isGoal);
    FoundSnoc([], n1, isGoal);
    FoundSnoc([], n2, isGoal);
    FoundSnoc([], n3, isGoal);
  }

  /** A node of the chain with one child pops itself, then that child's walk. */
  lemma ChainLink(n: Node<string>, c: Node<string>)
    requires |n.state.children| == 1 && c == Expand(n)[0]
    ensures Visit(n, Unbounded) == [n] + Visit(c, Unbounded)
  {
    assert VisitChildren(n, Unbounded, 1) == Visit(c, Unbounded) + VisitChildren(n, Unbounded, 0);
  }

  /** On the chain, the passes with bounds 3 and 4 each collect c once, so
      the complete passes from bound 3 append c once up to bound 3 and twice
      up to bound 4. */
  lemma ChainPasses()
    ensures FinalLimit(Chain, 3) == 4
    ensures AllPasses(Chain, GoalTest("c"), 3, 4) == ["c"]
    ensures AllPasses(Chain, GoalTest("c"), 3, 5) == ["c", "c"]
  {
    ChainShape(Unbounded);
    VisitGateInactive(Root(Chain), 3);
    VisitGateInactive(Root(Chain), 4);
    ChainWalk();
    assert AllPasses(Chain, GoalTest("c"), 3, 3) == [];
  }

  /** The driver started at depth 3 on the chain, looking for c, lists c
      twice: the pass with bound 3 and the pass with bound 4 both collect
      it, the second pass does not report a cutoff, and two entries are far
      from the cap. */
  method SampleRepeatedMatch() returns (found: seq<string>)
    ensures found == ["c", "c"]
  {
    ghost var lastLimit;
    found, lastLimit := IterativeDeepeningSearch(Chain, GoalTest("c"), 3, []);
    ChainPasses();
    assert |found| <= 2;
    assert [] + AllPasses(Chain, GoalTest("c"), 3, 5) == ["c", "c"];
  }
}

=== FILE: rights_search_distinct.dfy ===
/**
  The bounded enumeration with repeats skipped: a pass appends the value of
  a qualifying node only when the accumulator does not list it yet.
  Everything else (the depth at which matches count, the cap, the gate, the
  driver's bounds and stopping rule) is as in `RightsSearch`.

  With this change the accumulator lists every collectable value at most
  once; a run that ends below the cap lists all of them, and a run that
  reaches the cap lists exactly `Cap` distinct values.
 */
module DistinctRightsSearch {
  import opened Trees
  import opened SearchNodes
  import opened Traversal
  import opened DepthLimited
  import opened RightsSearch

  /** No value is listed twice. */
  ghost predicate Distinct<V>(s: seq<V>) {
    forall i, j :: 0 <= i < j < |s| ==> s[i] != s[j]
  }

  /** The accumulator after a pass starting from `acc` has popped the nodes
      of `s`, appending each qualifying value not already listed. */
  function Collect<V(==)>(acc: seq<V>, s: seq<Node<V>>, isGoal: V -> bool): seq<V>
    decreases |s|
  {
    if s == [] then acc
    else
      var before := Collect(acc, s[..|s| - 1], isGoal);
      var last := s[|s| - 1];
      if Qualifies(last, isGoal) && last.state.value !in before then before + [last.state.value] else before
  }

  lemma CollectSnoc<V>(acc: seq<V>, s: seq<Node<V>>, n: Node<V>, isGoal: V -> bool)
    ensures Collect(acc, s + [n], isGoal) ==
      var before := Collect(acc, s, isGoal);
      if Qualifies(n, isGoal) && n.state.value !in before then before + [n.state.value] else before
  {
    assert (s + [n])[..|s|] == s;
  }

  /** Collecting over two stretches of pops is collecting over the second
      starting from what the first left. */
  lemma {:induction false} CollectConcat<V>(acc: seq<V>, a: seq<Node<V>>, b: seq<Node<V>>, isGoal: V -> bool)
    ensures Collect(acc, a + b, isGoal) == Collect(Collect(acc, a, isGoal), b, isGoal)
    decreases |b|
  {
    if b == [] {
      assert a + b == a;
    } else {
      var front := b[..|b| - 1];
      var n := b[|b| - 1];
      assert a + b == (a + front) + [n];
      assert front + [n] == b;
      CollectSnoc(acc, a + front, n, isGoal);
      CollectConcat(acc, a, front, isGoal);
      CollectSnoc(Collect(acc, a, isGoal), front, n, isGoal);
    }
  }

  /** The accumulator only grows at its end. */
  lemma {:induction false} CollectExtends<V>(acc: seq<V>, s: seq<Node<V>>, isGoal: V -> bool)
    ensures |acc| <= |Collect(acc, s, isGoal)|
    ensures Collect(acc, s, isGoal)[..|acc|] == acc
    decreases |s|
  {
    if s != [] {
      CollectExtends(acc, s[..|s| - 1], isGoal);
      var before := Collect(acc, s[..|s| - 1], isGoal);
      assert (before + [s[|s| - 1].state.value])[..|acc|] == before[..|acc|];
    }
  }

  /** Starting from a list without repeats, the pass adds none. */
  lemma {:induction false} CollectDistinct<V>(acc: seq<V>, s: seq<Node<V>>, isGoal: V -> bool)
    requires Distinct(acc)
    ensures Distinct(Collect(acc, s, isGoal))
    decreases |s|
  {
    if s != [] {
      CollectDistinct(acc, s[..|s| - 1], isGoal);
      var before := Collect(acc, s[..|s| - 1], isGoal);
      var v := s[|s| - 1].state.value;
      if Qualifies(s[|s| - 1], isGoal) && v !in before {
        var after := before + [v];
        forall i, j | 0 <= i < j < |after|
          ensures after[i] != after[j]
        {
          if j == |before| {
            assert after[i] == before[i];
          }
        }
      }
    }
  }

  /** Every value the pass adds is the value of a qualifying node of `s`. */
  lemma {:induction false} CollectSoundAt<V>(acc: seq<V>, s: seq<Node<V>>, isGoal: V -> bool, k: nat)
    requires |acc| <= k < |Collect(acc, s, isGoal)|
    ensures QualifyingValue(s, isGoal, Collect(acc, s, isGoal)[k])
    decreases |s|
  {
    assert s != [];
    var front := s[..|s| - 1];
    var last := s[|s| - 1];
    var before := Collect(acc, front, isGoal);
    CollectSnoc(acc, front, last, isGoal);
    assert front + [last] == s;
    CollectExtends(acc, front, isGoal);
    if k < |before| {
      CollectSoundAt(acc, front, isGoal, k);
      var i :| 0 <= i < |front| && Qualifies(front[i], isGoal) && front[i].state.value == before[k];
      assert s[i] == front[i];
    } else {
      assert s[|s| - 1] == last;
    }
  }

  /** Every value added beyond `acc` is the value of a qualifying node of
      `s`. */
  lemma CollectSound<V>(acc: seq<V>, s: seq<Node<V>>, isGoal: V -> bool)
    ensures forall k :: |acc| <= k < |Collect(acc, s, isGoal)| ==> QualifyingValue(s, isGoal, Collect(acc, s, isGoal)[k])
  {
    forall k | |acc| <= k < |Collect(acc, s, isGoal)|
      ensures QualifyingValue(s, isGoal, Collect(acc, s, isGoal)[k])
    {
      CollectSoundAt(acc, s, isGoal, k);
    }
  }


  /** The value of every qualifying node of `s` is listed afterwards. */
  lemma {:induction false} CollectComplete<V>(acc: seq<V>, s: seq<Node<V>>, isGoal: V -> bool)
    ensures forall i :: 0 <= i < |s| && Qualifies(s[i], isGoal) ==> s[i].state.value in Collect(acc, s, isGoal)
    decreases |s|
  {
    if s != [] {
      var front := s[..|s| - 1];
      CollectComplete(acc, front, isGoal);
      forall i | 0 <= i < |s| && Qualifies(s[i], isGoal)
        ensures s[i].state.value in Collect(acc, s, isGoal)
      {
        if i < |front| {
          assert s[i] == front[i];
        }
      }
    }
  }

  /** What a pass with bound `limit` that skips values already listed
      returns, starting from the accumulator `start`. It lists, in the order
      of the gated traversal, the values of qualifying nodes it has not
      listed yet, and returns the node that brought the accumulator to `Cap`
      entries the moment that happens, which is exactly when the traversal
      adds enough new values. Otherwise it has gone through the whole
      traversal and reports `Cutoff` exactly when it popped a node at depth
      `limit` or more. Starting below the cap, it never goes beyond it. */
  ghost predicate DistinctPassOutcome<V>(t: Tree<V>, isGoal: V -> bool, limit: nat, start: seq<V>, r: Outcome<V>, found': seq<V>) {
    var order := PassOrder(t, limit, true);
    var all := Collect(start, order, isGoal);
    && (exists j :: 0 <= j <= |order| && found' == Collect(start, order[..j], isGoal))
    && (r.Goal? <==> |all| > |start| && |all| >= Cap)
    && (r.Goal? ==>
          && Qualifies(r.node, isGoal)
          && |found'| == (if |start| < Cap then Cap else |start| + 1)
          && found'[|found'| - 1] == r.node.state.value
          && r.node in order)
    && (!r.Goal? ==> found' == all)
    && (r.Cutoff? <==> !r.Goal? && AnyDeep(order, limit))
    && (|start| < Cap ==> |found'| <= Cap)
  }

  /** The distinct pass at the moment the cap is reached by the value of
      `node`, popped after the nodes of `front` and before those of `rest`. */
  lemma CollectCapReached<V>(t: Tree<V>, isGoal: V -> bool, limit: nat, start: seq<V>,
                             front: seq<Node<V>>, node: Node<V>, rest: seq<Node<V>>, collected: seq<V>)
    requires PassOrder(t, limit, true) == front + [node] + rest
    requires Qualifies(node, isGoal) && node.state.value !in Collect(start, front, isGoal)
    requires Collect(start, front, isGoal) == start || |Collect(start, front, isGoal)| < Cap
    requires collected == Collect(start, front, isGoal) + [node.state.value]
    requires |collected| >= Cap
    ensures DistinctPassOutcome(t, isGoal, limit, start, Goal(node), collected)
  {
    var order := PassOrder(t, limit, true);
    var visited := front + [node];
    CollectSnoc(start, front, node, isGoal);
    CollectExtends(start, front, isGoal);
    CollectConcat(start, visited, rest, isGoal);
    CollectExtends(Collect(start, visited, isGoal), rest, isGoal);
    assert order[..|visited|] == visited;
    assert order[|front|] == node;
  }

  /** The distinct pass once it has popped every node without reaching the
      cap. */
  lemma DistinctPassExhausted<V>(t: Tree<V>, isGoal: V -> bool, limit: nat, start: seq<V>, r: Outcome<V>, collected: seq<V>)
    requires collected == Collect(start, PassOrder(t, limit, true), isGoal)
    requires collected == start || |collected| < Cap
    requires r.Failure? || r.Cutoff?
    requires r.Cutoff? <==> AnyDeep(PassOrder(t, limit, true), limit)
    ensures DistinctPassOutcome(t, isGoal, limit, start, r, collected)
  {
    var order := PassOrder(t, limit, true);
    assert order[..|order|] == order;
    CollectExtends(start, order, isGoal);
  }

  /** One pass with bound `limit` that skips values already listed,
      starting from the accumulator `found` (a fresh list when there is
      none); what it returns is `DistinctPassOutcome`. */
  method DistinctDepthLimitedSearch<V(==)>(t: Tree<V>, isGoal: V -> bool, limit: nat, found: Option<seq<V>>)
    returns (r: Outcome<V>, found': seq<V>)
    ensures DistinctPassOutcome(t, isGoal, limit, Initial(found), r, found')
  {
    ghost var g := Bounded(limit);
    ghost var order := PassOrder(t, limit, true);
    ghost var visited: seq<Node<V>> := [];
    var start := Initial(found);
    found' := start;
    var frontier := [Root(t)];
    assert frontier[..0] == [];
    r := Failure;
    while frontier != []
      invariant visited + VisitStack(frontier, g) == order
      invariant found' == Collect(start, visited, isGoal)
      invariant found' == start || |found'| < Cap
      invariant r.Failure? || r.Cutoff?
      invariant r.Cutoff? <==> AnyDeep(visited, limit)
      decreases |order| - |visited|
    {
      PopPush(visited, frontier, g, order);
      var node := frontier[|frontier| - 1];
      frontier := frontier[..|frontier| - 1];
      CollectSnoc(start, visited, node, isGoal);
      AnyInSnoc(visited, node, DeepQ(limit));
      ghost var front := visited;
      visited := visited + [node];

      var depth := Depth(node);
      if depth >= MinDepth && isGoal(node.state.value) && node.state.value !in found' {
        found' := found' + [node.state.value];
        if |found'| >= Cap {
          CollectCapReached(t, isGoal, limit, start, front, node,
            VisitStack(frontier + (if Expands(g, depth) then Expand(node) else []), g), found');
          r := Goal(node);
          return;
        }
      }

      if depth >= limit {
        r := Cutoff;
        assert frontier + [] == frontier;
      } else {
        frontier := frontier + Expand(node);
      }
    }
    assert visited == order;
    DistinctPassExhausted(t, isGoal, limit, start, r, found');
  }

  lemma CollectDistinctIf<V>(acc: seq<V>, s: seq<Node<V>>, isGoal: V -> bool)
    ensures Distinct(acc) ==> Distinct(Collect(acc, s, isGoal))
  {
    if Distinct(acc) {
      CollectDistinct(acc, s, isGoal);
    }
  }

  /** The driver of `RightsSearch` over the pass that skips repeats. The
      entries already present stay in front; without repeats among them,
      none are added; every entry added is the value of a collectable node;
      starting below the cap it never goes beyond it; and when it ends below
      the cap, every collectable value of the tree, however deep, is
      listed, the last bound being the first below the bottom of the tree. */
  method DistinctIterativeDeepeningSearch<V(==)>(t: Tree<V>, isGoal: V -> bool, startDepth: nat, found: seq<V>)
    returns (found': seq<V>, ghost lastLimit: nat)
    ensures |found| <= |found'| && found'[..|found|] == found
    ensures Distinct(found) ==> Distinct(found')
    ensures |found| < Cap ==> |found'| <= Cap
    ensures forall i :: |found| <= i < |found'| ==> Somewhere(t, 0, Unbounded, MatchQ(isGoal, found'[i]))
    ensures |found'| < Cap ==> forall v :: Somewhere(t, 0, Unbounded, MatchQ(isGoal, v)) ==> v in found'
    ensures startDepth <= lastLimit <= FinalLimit(t, startDepth)
    ensures |found'| < Cap ==> lastLimit == FinalLimit(t, startDepth)
  {
    var limit := startDepth;
    found' := found;
    while true
      invariant startDepth <= limit <= FinalLimit(t, startDepth)
      invariant limit > startDepth ==> Height(t) >= limit - 1
      invariant |found| <= |found'| && found'[..|found|] == found
      invariant Distinct(found) ==> Distinct(found')
      invariant |found| < Cap ==> |found'| < Cap
      invariant forall i :: |found| <= i < |found'| ==> Somewhere(t, 0, Unbounded, MatchQ(isGoal, found'[i]))
      decreases Height(t) + 1 - limit
    {
      ghost var before := found';
      var r;
      r, found' := DistinctDepthLimitedSearch(t, isGoal, limit, Some(found'));
      lastLimit := limit;
      DistinctPassExtends(t, isGoal, limit, found, before, found');
      VisitCovers(Root(t), Bounded(limit), DeepQ(limit));
      DeepIffHeight(t, 0, Bounded(limit), limit);
      if |found'| >= Cap {
        return;
      }
      if r != Cutoff {
        DistinctPassCompletes(t, isGoal, limit, before, found');
        return;
      }
      limit := limit + 1;
    }
  }

  /** What one pass keeps: the original entries stay in front, and every
      entry beyond them is the value of a collectable node. */
  lemma DistinctPassExtends<V>(t: Tree<V>, isGoal: V -> bool, limit: nat, found: seq<V>, before: seq<V>, after: seq<V>)
    requires |found| <= |before| && before[..|found|] == found
    requires forall i :: |found| <= i < |before| ==> Somewhere(t, 0, Unbounded, MatchQ(isGoal, before[i]))
    requires exists j ::
      && 0 <= j <= |PassOrder(t, limit, true)|
      && after == Collect(before, PassOrder(t, limit, true)[..j], isGoal)
    ensures |found| <= |after| && after[..|found|] == found
    ensures forall i :: |found| <= i < |after| ==> Somewhere(t, 0, Unbounded, MatchQ(isGoal, after[i]))
    ensures Distinct(before) ==> Distinct(after)
  {
    var order := PassOrder(t, limit, true);
    var j :| 0 <= j <= |order| && after == Collect(before, order[..j], isGoal);
    var s := order[..j];
    CollectDistinctIf(before, s, isGoal);
    CollectExtends(before, s, isGoal);
    CollectSound(before, s, isGoal);
    assert after[..|found|] == before[..|found|];
    forall k | |found| <= k < |after|
      ensures Somewhere(t, 0, Unbounded, MatchQ(isGoal, after[k]))
    {
      if k < |before| {
        assert after[k] == before[k];
      } else {
        var v := after[k];
        var i :| 0 <= i < |s| && Qualifies(s[i], isGoal) && s[i].state.value == v;
        assert order[i] == s[i];
        assert AnyIn(order, MatchQ(isGoal, v));
        VisitCovers(Root(t), Bounded(limit), MatchQ(isGoal, v));
        SomewhereWidens(t, 0, limit, limit, MatchQ(isGoal, v));
      }
    }
  }

  /** A pass that ends without the cap and without a cutoff has met every
      node of the tree, so the accumulator lists every collectable value. */
  lemma DistinctPassCompletes<V>(t: Tree<V>, isGoal: V -> bool, limit: nat, before: seq<V>, after: seq<V>)
    requires after == Collect(before, PassOrder(t, limit, true), isGoal)
    requires !AnyDeep(PassOrder(t, limit, true), limit)
    ensures forall v :: Somewhere(t, 0, Unbounded, MatchQ(isGoal, v)) ==> v in after
  {
    var order := PassOrder(t, limit, true);
    VisitCovers(Root(t), Bounded(limit), DeepQ(limit));
    DeepIffHeight(t, 0, Bounded(limit), limit);
    CollectComplete(before, order, isGoal);
    forall v | Somewhere(t, 0, Unbounded, MatchQ(isGoal, v))
      ensures v in after
    {
      GateInactive(t, 0, limit, MatchQ(isGoal, v));
      VisitCovers(Root(t), Bounded(limit), MatchQ(isGoal, v));
      var i :| 0 <= i < |order| && MatchQ(isGoal, v)(order[i].state.value, Depth(order[i]));
      assert Qualifies(order[i], isGoal);
    }
  }

  /** A list holding one value throughout has repeats once it holds two
      entries. */
  lemma RepeatedValue<V>(s: seq<V>, x: V)
    requires forall i :: 0 <= i < |s| ==> s[i] == x
    ensures Distinct(s) ==> |s| <= 1
  {
    if |s| >= 2 {
      assert s[0] == s[1];
    }
  }

  /** On the chain of `RightsSearch`, the driver that skips repeats lists c
      exactly once. */
  method SampleDistinct() returns (found: seq<string>)
    ensures found == ["c"]
  {
    var isGoal := GoalTest("c");
    ghost var lastLimit;
    found, lastLimit := DistinctIterativeDeepeningSearch(Chain, isGoal, 3, []);
    forall i | 0 <= i < |found|
      ensures found[i] == "c"
    {
      MatchedValuePasses(Chain, 0, Unbounded, isGoal, found[i]);
    }
    RepeatedValue(found, "c");
    ChainShape(Unbounded);
  }
}

=== FILE: search_nodes.dfy ===
/**
  Search nodes, their expansion and the outcomes of a bounded pass.

  A search node records a state, the node it was expanded from, the action
  that led to it and the accumulated path cost. Its depth is not stored: it
  is the length of the parent chain.
 */
module SearchNodes {
  import opened Trees

  datatype Node<V> = Node(state: Tree<V>, parent: Option<Node<V>>, action: Option<Tree<V>>, pathCost: nat)

  /** What a bounded pass returns: a node (a found goal, or in the bounded
      enumeration the node that filled the accumulator), or one of the two
      sentinels. The sentinels are a tag of their own, so no real node can be
      mistaken for one. */
  datatype Outcome<V> = Goal(node: Node<V>) | Failure | Cutoff

  /** The node every pass starts from: the initial state, no parent, no
      action, cost 0. */
  function Root<V>(t: Tree<V>): Node<V> {
    Node(t, None, None, 0)
  }

  /** Number of parent links between `n` and the root of its chain. */
  function Depth<V>(n: Node<V>): nat
    decreases n
  {
    match n.parent
    case None => 0
    case Some(p) => 1 + Depth(p)
  }

  /** The children of `n`, one per action, in the order the actions come;
      each action is a child tree and the state it leads to is that tree. */
  function Expand<V>(n: Node<V>): (cs: seq<Node<V>>)
    ensures |cs| == |n.state.children|
    ensures forall i :: 0 <= i < |cs| ==>
      && cs[i].state == n.state.children[i]
      && cs[i].parent == Some(n)
      && cs[i].action == Some(n.state.children[i])
    ensures forall i :: 0 <= i < |cs| ==>
      Depth(cs[i]) == Depth(n) + 1 && cs[i].pathCost == n.pathCost + 1
  {
    seq(|n.state.children|, i requires 0 <= i < |n.state.children| =>
      Node(n.state.children[i], Some(n), Some(n.state.children[i]), n.pathCost + 1))
  }

  /** `n` was built from `Root(t)` by a chain of expansions: each link's state
      is a child of its parent's state, reached by the action naming it, at
      one unit of cost more. */
  ghost predicate WellFormedIn<V>(n: Node<V>, t: Tree<V>)
    decreases n
  {
    match n.parent
    case None => n == Root(t)
    case Some(p) =>
      && n.state in p.state.children
      && n.action == Some(n.state)
      && n.pathCost == p.pathCost + 1
      && WellFormedIn(p, t)
  }

  /** The states along the parent chain, from the root of the chain to `n`. */
  ghost function StateRoute<V>(n: Node<V>): (route: seq<Tree<V>>)
    ensures |route| == Depth(n) + 1
    ensures route[|route| - 1] == n.state
    decreases n
  {
    match n.parent
    case None => [n.state]
    case Some(p) => StateRoute(p) + [n.state]
  }

  lemma {:induction false} ExpandWellFormed<V>(n: Node<V>, t: Tree<V>)
    requires WellFormedIn(n, t)
    ensures forall c :: c in Expand(n) ==> WellFormedIn(c, t)
  {
    var cs := Expand(n);
    forall c | c in cs
      ensures WellFormedIn(c, t)
    {
      var i :| 0 <= i < |cs| && cs[i] == c;
      assert c.state == n.state.children[i];
    }
  }

  /** With unit action costs the accumulated cost of a node is its depth. */
  lemma {:induction false} PathCostIsDepth<V>(n: Node<V>, t: Tree<V>)
    requires WellFormedIn(n, t)
    ensures n.pathCost == Depth(n)
    decreases n
  {
    match n.parent
    case None =>
    case Some(p) => PathCostIsDepth(p, t);
  }

  lemma {:induction false} RouteExtends<V>(t: Tree<V>, route: seq<Tree<V>>, next: Tree<V>)
    requires IsRoute(t, route)
    requires next in route[|route| - 1].children
    ensures IsRoute(t, route + [next])
    decreases |route|
  {
    if |route| > 1 {
      RouteExtends(route[1], route[1..], next);
      assert (route + [next])[1..] == route[1..] + [next];
    }
  }

  /** The parent chain of a node built from `Root(t)` is a route of `t`
      from the root down to the node's state. */
  lemma {:induction false} StateRouteIsRoute<V>(n: Node<V>, t: Tree<V>)
    requires WellFormedIn(n, t)
    ensures IsRoute(t, StateRoute(n))
    decreases n
  {
    match n.parent
    case None =>
    case Some(p) =>
      StateRouteIsRoute(p, t);
      RouteExtends(t, StateRoute(p), n.state);
  }
}

=== FILE: traversal.dfy ===
/**
  The order in which a depth-first pass over an explicit LIFO stack visits
  the nodes, stated as a recursive traversal.

  Children are pushed in the order `expand` yields them and popped last-in
  first-out, so a node is followed by the traversal of its LAST child, then
  of the one before it, and so on: a pre-order walk taking children from
  right to left. `Visit` states that order without any stack; the passes in
  the other modules are proved to pop nodes in exactly this order.
 */
module Traversal {
  import opened Trees
  import opened SearchNodes

  /** The nodes a pass pops from the moment `n` is on top of the stack until
      everything pushed above it has been popped. */
  ghost function Visit<V>(n: Node<V>, g: Gate): seq<Node<V>>
    decreases n.state, 1, 0
  {
    [n] + (if Expands(g, Depth(n)) then VisitChildren(n, g, |n.state.children|) else [])
  }

  /** The traversals of the first `k` children of `n`, the `k`-th first. */
  ghost function VisitChildren<V>(n: Node<V>, g: Gate, k: nat): seq<Node<V>>
    requires k <= |n.state.children|
    decreases n.state, 0, k
  {
    if k == 0 then [] else Visit(Expand(n)[k - 1], g) + VisitChildren(n, g, k - 1)
  }

  /** The nodes a pass pops, in order, starting from the stack `s` (its top
      is the last element). */
  ghost function VisitStack<V>(s: seq<Node<V>>, g: Gate): seq<Node<V>>
    decreases |s|
  {
    if s == [] then [] else Visit(s[|s| - 1], g) + VisitStack(s[..|s| - 1], g)
  }

  /** Some node of `s` satisfies `Q(value, depth)`. */
  ghost predicate AnyIn<V>(s: seq<Node<V>>, Q: (V, nat) -> bool) {
    exists i :: 0 <= i < |s| && Q(s[i].state.value, Depth(s[i]))
  }

  lemma AnyInConcat<V>(a: seq<Node<V>>, b: seq<Node<V>>, Q: (V, nat) -> bool)
    ensures AnyIn(a + b, Q) <==> AnyIn(a, Q) || AnyIn(b, Q)
  {
    if AnyIn(a + b, Q) {
      var i :| 0 <= i < |a + b| && Q((a + b)[i].state.value, Depth((a + b)[i]));
      if i >= |a| {
        assert (a + b)[i] == b[i - |a|];
      }
    }
    if AnyIn(a, Q) {
      var i :| 0 <= i < |a| && Q(a[i].state.value, Depth(a[i]));
      assert (a + b)[i] == a[i];
    }
    if AnyIn(b, Q) {
      var i :| 0 <= i < |b| && Q(b[i].state.value, Depth(b[i]));
      assert (a + b)[|a| + i] == b[i];
    }
  }

  /** Pushing `b` above `a` means `b`'s traversals come first. */
  lemma {:induction false} VisitStackAppend<V>(a: seq<Node<V>>, b: seq<Node<V>>, g: Gate)
    ensures VisitStack(a + b, g) == VisitStack(b, g) + VisitStack(a, g)
    decreases |b|
  {
    if b == [] {
      assert a + b == a;
    } else {
      var last := b[|b| - 1];
      assert (a + b)[..|a + b| - 1] == a + b[..|b| - 1];
      VisitStackAppend(a, b[..|b| - 1], g);
    }
  }

  lemma {:induction false} VisitStackExpandPrefix<V>(n: Node<V>, g: Gate, k: nat)
    requires k <= |n.state.children|
    ensures VisitStack(Expand(n)[..k], g) == VisitChildren(n, g, k)
  {
    if k > 0 {
      var cs := Expand(n);
      assert cs[..k][..k - 1] == cs[..k - 1];
      VisitStackExpandPrefix(n, g, k - 1);
    }
  }

  /** One pop: the popped node comes first, then (if the gate lets it
      expand) the traversal of the children just pushed. */
  lemma VisitStep<V>(n: Node<V>, g: Gate)
    ensures Visit(n, g) ==
      [n] + (if Expands(g, Depth(n)) then VisitStack(Expand(n), g) else [])
  {
    var cs := Expand(n);
    assert cs[..|cs|] == cs;
    VisitStackExpandPrefix(n, g, |cs|);
  }

  /** The traversal-order contract: right after a node that expands comes
      its last child, not its first. */
  lemma LastChildVisitedFirst<V>(n: Node<V>, g: Gate)
    requires Expands(g, Depth(n)) && |n.state.children| > 0
    ensures |Visit(n, g)| >= 2
    ensures Visit(n, g)[1] == Expand(n)[|n.state.children| - 1]
  {
    var k := |n.state.children|;
    assert VisitChildren(n, g, k) == Visit(Expand(n)[k - 1], g) + VisitChildren(n, g, k - 1);
  }

  /** Every node visited from a node built from `Root(t)` is itself built
      from `Root(t)` and lies no higher than where the traversal started. */
  lemma {:induction false} VisitWellFormed<V>(n: Node<V>, g: Gate, t: Tree<V>)
    requires WellFormedIn(n, t)
    ensures forall m :: m in Visit(n, g) ==> WellFormedIn(m, t) && Depth(m) >= Depth(n)
    decreases n.state, 1, 0
  {
    if Expands(g, Depth(n)) {
      VisitChildrenWellFormed(n, g, t, |n.state.children|);
    }
  }

  lemma {:induction false} VisitChildrenWellFormed<V>(n: Node<V>, g: Gate, t: Tree<V>, k: nat)
    requires WellFormedIn(n, t)
    requires k <= |n.state.children|
    ensures forall m :: m in VisitChildren(n, g, k) ==> WellFormedIn(m, t) && Depth(m) > Depth(n)
    decreases n.state, 0, k
  {
    if k > 0 {
      var c := Expand(n)[k - 1];
      ExpandWellFormed(n, t);
      VisitWellFormed(c, g, t);
      VisitChildrenWellFormed(n, g, t, k - 1);
    }
  }

  /** A bounded traversal never goes below its bound. */
  lemma {:induction false} VisitWithinBound<V>(n: Node<V>, limit: nat)
    requires Depth(n) <= limit
    ensures forall m :: m in Visit(n, Bounded(limit)) ==> Depth(m) <= limit
    decreases n.state, 1, 0
  {
    if Depth(n) < limit {
      VisitChildrenWithinBound(n, limit, |n.state.children|);
    }
  }

  lemma {:induction false} VisitChildrenWithinBound<V>(n: Node<V>, limit: nat, k: nat)
    requires Depth(n) < limit
    requires k <= |n.state.children|
    ensures forall m :: m in VisitChildren(n, Bounded(limit), k) ==> Depth(m) <= limit
    decreases n.state, 0, k
  {
    if k > 0 {
      VisitWithinBound(Expand(n)[k - 1], limit);
      VisitChildrenWithinBound(n, limit, k - 1);
    }
  }

  /** The traversal from `n` meets a node satisfying `Q` exactly when the
      subtree of `n`'s state holds one, counting depths from `n`'s depth and
      pruning where the gate prunes. */
  lemma {:induction false} VisitCovers<V>(n: Node<V>, g: Gate, Q: (V, nat) -> bool)
    ensures AnyIn(Visit(n, g), Q) <==> Somewhere(n.state, Depth(n), g, Q)
    decreases n.state, 1, 0
  {
    var rest := if Expands(g, Depth(n)) then VisitChildren(n, g, |n.state.children|) else [];
    AnyInConcat([n], rest, Q);
    assert AnyIn([n], Q) <==> Q(n.state.value, Depth(n)) by {
      assert [n][0] == n;
    }
    if Expands(g, Depth(n)) {
      VisitChildrenCovers(n, g, Q, |n.state.children|);
    }
  }

  lemma {:induction false} VisitChildrenCovers<V>(n: Node<V>, g: Gate, Q: (V, nat) -> bool, k: nat)
    requires k <= |n.state.children|
    ensures AnyIn(VisitChildren(n, g, k), Q) <==>
      exists i :: 0 <= i < k && Somewhere(n.state.children[i], Depth(n) + 1, g, Q)
    decreases n.state, 0, k
  {
    if k > 0 {
      var c := Expand(n)[k - 1];
      AnyInConcat(Visit(c, g), VisitChildren(n, g, k - 1), Q);
      VisitCovers(c, g, Q);
      VisitChildrenCovers(n, g, Q, k - 1);
    }
  }

  /** Once the bound is at or below the bottom of the subtree, the bounded
      and the unbounded traversals are the same sequence: the only nodes the
      bound stops expanding are leaves. */
  lemma {:induction false} VisitGateInactive<V>(n: Node<V>, limit: nat)
    requires Depth(n) + Height(n.state) <= limit
    ensures Visit(n, Bounded(limit)) == Visit(n, Unbounded)
    decreases n.state, 1, 0
  {
    HeightOfChildren(n.state);
    VisitChildrenGateInactive(n, limit, |n.state.children|);
  }

  lemma {:induction false} VisitChildrenGateInactive<V>(n: Node<V>, limit: nat, k: nat)
    requires Depth(n) + Height(n.state) <= limit
    requires k <= |n.state.children|
    ensures VisitChildren(n, Bounded(limit), k) == VisitChildren(n, Unbounded, k)
    decreases n.state, 0, k
  {
    if k > 0 {
      HeightOfChildren(n.state);
      VisitGateInactive(Expand(n)[k - 1], limit);
      VisitChildrenGateInactive(n, limit, k - 1);
    }
  }
}

=== FILE: trees.dfy ===
/**
  The state spaces searched by the engine: finite, ordered trees.

  Every problem adapter of the system uses a tree node as its state, lists the
  node's children as its actions (in their stored order) and returns the
  action itself as the next state. So the state space is an immutable tree
  whose children sequence is exactly what `actions` returns.
 */
module Trees {

  datatype Option<T> = None | Some(value: T)

  /** A tree node: its payload (a file name, a user id, a path) and its
      children in the order `actions` returns them. */
  datatype Tree<V> = Tree(value: V, children: seq<Tree<V>>)

  /** How deep a depth-first pass may expand. `Bounded(limit)` expands only
      nodes whose depth is below `limit`; `Unbounded` expands every node. */
  datatype Gate = Unbounded | Bounded(limit: nat)

  predicate Expands(g: Gate, depth: nat) {
    g.Unbounded? || depth < g.limit
  }

  /** Length of the longest downward path from `t`. */
  function Height<V>(t: Tree<V>): nat
    decreases t, 1, 0
  {
    if |t.children| == 0 then 0 else 1 + MaxChildHeight(t, |t.children|)
  }

  /** The largest height among the first `k` children of `t`. */
  function MaxChildHeight<V>(t: Tree<V>, k: nat): nat
    requires k <= |t.children|
    decreases t, 0, k
  {
    if k == 0 then 0
    else
      var here := Height(t.children[k - 1]);
      var rest := MaxChildHeight(t, k - 1);
      if k == 1 || rest < here then here else rest
  }

  lemma {:induction false} MaxChildHeightIsMax<V>(t: Tree<V>, k: nat)
    requires k <= |t.children|
    ensures forall i :: 0 <= i < k ==> Height(t.children[i]) <= MaxChildHeight(t, k)
    ensures k > 0 ==> exists i :: 0 <= i < k && MaxChildHeight(t, k) == Height(t.children[i])
  {
    if k > 0 {
      MaxChildHeightIsMax(t, k - 1);
    }
  }

  /** Every child is strictly lower than its parent, and a node with
      children is exactly one higher than its highest child. */
  lemma HeightOfChildren<V>(t: Tree<V>)
    ensures forall i :: 0 <= i < |t.children| ==> Height(t.children[i]) < Height(t)
    ensures |t.children| == 0 <==> Height(t) == 0
    ensures |t.children| > 0 ==>
      exists i :: 0 <= i < |t.children| && Height(t) == Height(t.children[i]) + 1
  {
    MaxChildHeightIsMax(t, |t.children|);
  }

  /** Some node of `t` satisfies `Q(value, depth)`, where `t` itself sits at
      depth `d` and only nodes that `g` lets expand have their children
      considered. This is the tree-level reference the search is proved
      against; it knows nothing of stacks or search nodes. */
  ghost predicate Somewhere<V>(t: Tree<V>, d: nat, g: Gate, Q: (V, nat) -> bool)
    decreases t
  {
    || Q(t.value, d)
    || (Expands(g, d) &&
        exists i :: 0 <= i < |t.children| && Somewhere(t.children[i], d + 1, g, Q))
  }

  /** The node-level test "the value satisfies `P`", depth ignored. */
  function ValueQ<V>(P: V -> bool): (V, nat) -> bool {
    (v, d) => P(v)
  }

  /** The node-level test "the depth has reached `limit`". */
  function DeepQ<V>(limit: nat): (V, nat) -> bool {
    (v, d) => d >= limit
  }

  /** Some node anywhere in `t` has a value satisfying `P`. */
  ghost predicate Occurs<V>(t: Tree<V>, P: V -> bool) {
    Somewhere(t, 0, Unbounded, ValueQ(P))
  }

  /** Some node of `t` at depth at most `limit` has a value satisfying `P`. */
  ghost predicate OccursWithin<V>(t: Tree<V>, P: V -> bool, limit: nat) {
    Somewhere(t, 0, Bounded(limit), ValueQ(P))
  }

  /** `route` starts at `t` and each element is a child of the one before. */
  ghost predicate IsRoute<V>(t: Tree<V>, route: seq<Tree<V>>)
    decreases |route|
  {
    && |route| >= 1
    && route[0] == t
    && (|route| == 1 || (route[1] in t.children && IsRoute(route[1], route[1..])))
  }

  /** A wider bound finds everything a narrower one does, and no bound at
      all finds everything any bound does. */
  lemma {:induction false} SomewhereWidens<V>(t: Tree<V>, d: nat, a: nat, b: nat, Q: (V, nat) -> bool)
    requires a <= b
    requires Somewhere(t, d, Bounded(a), Q)
    ensures Somewhere(t, d, Bounded(b), Q)
    ensures Somewhere(t, d, Unbounded, Q)
    decreases t
  {
    if !Q(t.value, d) {
      var i :| 0 <= i < |t.children| && Somewhere(t.children[i], d + 1, Bounded(a), Q);
      SomewhereWidens(t.children[i], d + 1, a, b, Q);
    }
  }

  /** Once the bound reaches the bottom of the tree it prunes nothing. */
  lemma {:induction false} GateInactive<V>(t: Tree<V>, d: nat, limit: nat, Q: (V, nat) -> bool)
    requires d + Height(t) <= limit
    ensures Somewhere(t, d, Bounded(limit), Q) <==> Somewhere(t, d, Unbounded, Q)
    decreases t
  {
    HeightOfChildren(t);
    if Somewhere(t, d, Unbounded, Q) && !Q(t.value, d) {
      var i :| 0 <= i < |t.children| && Somewhere(t.children[i], d + 1, Unbounded, Q);
      GateInactive(t.children[i], d + 1, limit, Q);
    }
    if Somewhere(t, d, Bounded(limit), Q) && !Q(t.value, d) {
      var i :| 0 <= i < |t.children| && Somewhere(t.children[i], d + 1, Bounded(limit), Q);
      GateInactive(t.children[i], d + 1, limit, Q);
    }
  }

  /** A node at depth `limit` or more is reachable (through the gate) exactly
      when the tree is deep enough, provided a bounded gate is not already
      passed at the root. */
  lemma {:induction false} DeepIffHeight<V>(t: Tree<V>, d: nat, g: Gate, limit: nat)
    requires g == Unbounded || (g == Bounded(limit) && d <= limit)
    ensures Somewhere(t, d, g, DeepQ(limit)) <==> d + Height(t) >= limit
    decreases t
  {
    if d >= limit {
      assert DeepQ<V>(limit)(t.value, d);
    } else {
      HeightOfChildren(t);
      assert Expands(g, d);
      if Somewhere(t, d, g, DeepQ(limit)) {
        var i :| 0 <= i < |t.children| && Somewhere(t.children[i], d + 1, g, DeepQ(limit));
        DeepIffHeight(t.children[i], d + 1, g, limit);
      }
      if d + Height(t) >= limit {
        var i :| 0 <= i < |t.children| && Height(t) == Height(t.children[i]) + 1;
        DeepIffHeight(t.children[i], d + 1, g, limit);
      }
    }
  }

  lemma OccursWithinMonotone<V>(t: Tree<V>, P: V -> bool, a: nat, b: nat)
    requires a <= b && OccursWithin(t, P, a)
    ensures OccursWithin(t, P, b) && Occurs(t, P)
  {
    SomewhereWidens(t, 0, a, b, ValueQ(P));
  }

  lemma OccursWithinHeight<V>(t: Tree<V>, P: V -> bool, limit: nat)
    requires Height(t) <= limit
    ensures OccursWithin(t, P, limit) <==> Occurs(t, P)
  {
    GateInactive(t, 0, limit, ValueQ(P));
  }

  /** The first step of a route of `t` goes to a child of `t`. */
  lemma RouteStep<V>(t: Tree<V>, route: seq<Tree<V>>)
    requires IsRoute(t, route) && |route| > 1
    ensures route[1] in t.children && IsRoute(route[1], route[1..])
  {
  }

  lemma LeafRoute<V>(leaf: Tree<V>, route: seq<Tree<V>>)
    requires leaf.children == [] && IsRoute(leaf, route)
    ensures route == [leaf]
  {
  }

  /** The end of a route of `t` is a node of `t`, at the depth the route's
      length says, and a gate that lets that depth through finds it. */
  lemma {:induction false} RouteEndIsSomewhere<V>(t: Tree<V>, route: seq<Tree<V>>, d: nat, g: Gate, Q: (V, nat) -> bool)
    requires IsRoute(t, route)
    requires g.Bounded? ==> d + |route| - 1 <= g.limit
    ensures Q(route[|route| - 1].value, d + |route| - 1) ==> Somewhere(t, d, g, Q)
    decreases |route|
  {
    if |route| > 1 {
      RouteEndIsSomewhere(route[1], route[1..], d + 1, g, Q);
      var i :| 0 <= i < |t.children| && t.children[i] == route[1];
      assert Expands(g, d);
      assert Somewhere(route[1], d + 1, g, Q) ==> Somewhere(t, d, g, Q);
    }
  }

}
